=== FILE: README.md ===
# A model of the to-do client's page logic

The repository is a Next.js to-do client. A page lists to-do records with a
pager. Selecting a record opens a rich-text editor for its description and an
editable title. A search bar in the list header offers suggestions as the user
types. This project models, in Dafny, the six pieces of sequential logic behind
that page:

- **Pagination** (`pagination.dfy`, module `Pagination`):
  - the window of page numbers shown around the current page;
  - the ellipses that fill gaps wider than one;
  - the disabled conditions of Previous and Next.
- **To-do list** (`todo_list.dfy`, module `TodoList`):
  - the guarded page change, which keeps the current `limit`;
  - the search-by-name replacement of the list;
  - the empty-state switch.
- **Title header** (`editor_header.dfy`, module `EditorHeader`): the title's edit
  session, a state machine over `(isEditing, currentTitle)` driven by click,
  typing, Enter, Escape, blur and a new `title` prop.
- **Page section** (`todo_section.dfy`, module `TodoSection`):
  - selection and the mobile modal;
  - the title rename, which patches records by id;
  - the delete, which removes them by id and carries a `deleting` flag.
- **Editor** (`editor.dfy`, module `Editor`): the editor session. It covers the
  dirty flag, the arming of the five-second autosave, and the effects of a
  successful or failed save on the flag and on the shared list.
- **Search bar** (`todos_head.dfy`, module `TodosHead`):
  - the toggle and the debounced suggestion fetch;
  - the suggestion dropdown and the "No results" box;
  - select, clear and outside click.

Four helper modules hold what these share:

- `Options` (`options.dfy`): an optional value.
- `Text` (`text.dfy`): JavaScript's `String.prototype.trim` over the ECMAScript
  whitespace and line-terminator code points (sections 12.2 and 12.3 of ECMA-262).
- `Sorting` (`sorting.dfy`): the numeric `sort((a, b) => a - b)`, written as an
  insertion sort. A lemma shows that every ascending permutation of the input
  equals its result.
- `Store` (`store.dfy`): the shared list of records and the three array
  operations the components apply to it. `find` becomes `Find`, the map that
  patches by id becomes `Patch`, and the filter that removes by id becomes
  `RemoveById`.

Each component with state is an immutable record with a `Step(state, event)`
function. Network requests, timers and the browser are not part of the model:

- **Requests.** An effect or request value stands for each call. The call's
  success or failure arrives later as a separate event, in any order relative
  to other events.
- **Timers.** A `Ticked` event is the autosave interval going off. A `DebounceElapsed`
  event is the 500 ms debounce going off.
- **The viewport.** Its width is the argument of a `Resized` event.
- **Data.** HTML is an opaque string. A missing `_id` or `description` is the
  empty string.

### Behaviour the model keeps from the code

- **Stale responses.** No request carries a sequence number. A suggestion
  response, a rename or a save that completes late is applied as it is.
  - `TodosHead.StaleResponseClobbers` and `Editor.StaleSaveLandsOnOldId`
    state the consequences.
  - So does `TodoSection.LateRenameRetitlesOtherSelection`.
- **Modal.** A successful delete does not close the mobile modal, and
  widening the window does not close it either (`TodoSection.DeleteFromModalKeepsModal`,
  `TodoSection.ResizeKeepsModal`). A mobile click opens the modal without
  selecting anything.
- **Dirty flag.**
  - An edit made while a save is in flight is cleared from the dirty flag
    by that save's success (`Editor.EditDuringSaveIsNotResent`).
  - Rebinding the editor does not flush or discard the dirty flag
    (`Editor.RebindDiscardsDraft`, `Editor.RebindWithoutDescriptionCarriesDraft`).
- **Search bar.**
  - A pending debounce survives both closing the bar and `clearSearch`.
  - A suggestion response turns the dropdown on whatever the bar's state
    (`TodosHead.ClosedBarStillFetches`).

## Model

| member | source | states |
|---|---|---|
| Text.Trim | app/_components/EditorHeader.jsx:41 | `trim`: the result is empty exactly when the input is all whitespace; otherwise it starts and ends with a non-whitespace character and is the input with only whitespace cut from its two ends |
| Text.TrimIdempotent | app/_components/EditorHeader.jsx:41 | trimming a trimmed title changes nothing |
| Text.Utf16Length | app/_components/EditorHeader.jsx:71 | JavaScript's `length`: each character counts one UTF-16 code unit, or two above U+FFFF, so the length is between the character count and twice it |
| Text.Utf16Concat | app/_components/EditorHeader.jsx:71 | the code-unit length of a concatenation is the sum of the lengths |
| Text.TrimUtf16 | app/_components/EditorHeader.jsx:41 | trimming never adds code units |
| Sorting.SortAscending | app/_components/Pagination.jsx:34 | the numeric sort returns an ascending rearrangement of its input: same length, same multiset of numbers |
| Sorting.SortFixpoint | app/_components/Pagination.jsx:34 | sorting numbers that are already ascending leaves them as they are |
| Sorting.SortUnique | app/_components/Pagination.jsx:34 | any ascending rearrangement of the input is the sort's result, so the insertion sort agrees with every correct numeric sort |
| Store.WithField | app/_components/TodoSection.jsx:83 | the object spread sets one field and keeps the id, the creation time and the other field |
| Store.Find | app/_components/TodoSection.jsx:62 | `find` returns nothing exactly when no record has the id, and otherwise the first record that has it |
| Store.Patch | app/_components/TodoSection.jsx:80-86 | the patch by id keeps length, order, ids and creation times, sets the field on every record with the id and leaves every other field and record alone |
| Store.PatchAbsentId | app/_components/TodoSection.jsx:80-86 | patching an id no record carries leaves the list unchanged |
| Store.PatchLastWriteWins | app/_components/Editor.jsx:117-123 | two saves of the same field on the same id leave the later value |
| Store.PatchFieldsCommute | app/_components/Editor.jsx:117-123 | a description save and a title rename commute, whichever completes first |
| Store.FindAfterPatch | app/_components/TodoSection.jsx:80-86 | after a patch, looking the id up finds the same record with the new value |
| Store.RemoveMembers | app/_components/TodoSection.jsx:108-110 | the filter keeps a record exactly when it was in the list and its id differs |
| Store.RemoveById | app/_components/TodoSection.jsx:108-110 | the filter never lengthens the list, and every record it keeps has another id and comes from the list |
| Store.RemoveLength | app/_components/TodoSection.jsx:108-110 | the filter shortens the list exactly when some record has the id |
| Store.RemoveConcat | app/_components/TodoSection.jsx:108-110 | the filter keeps order: filtering a concatenation filters each part |
| Store.RemoveSingle | app/_components/TodoSection.jsx:108-110 | a single record survives the filter exactly when its id differs |
| Store.RemoveIdempotent | app/_components/TodoSection.jsx:108-110 | after removal no record has the id, and removing again changes nothing |
| Store.RemoveAbsentId | app/_components/TodoSection.jsx:108-110 | removing an id no record carries leaves the list unchanged |
| Store.RemoveAfterPatch | app/_components/TodoSection.jsx:80-110 | deleting a record discards any rename made to it |
| Pagination.PushedShape | app/_components/Pagination.jsx:18-31 | with more than three pages, the numbers pushed are `1 2 3 T`, `1 T-2 T-1 T`, or `1 p-1 p p+1 T`, with `T` dropped when it is already there (as on page `T+1`) |
| Pagination.Range | app/_components/Pagination.jsx:14-17 | the loop pushes `lo..hi` in ascending order, one number per step, and nothing when `hi < lo` |
| Pagination.Pushed | app/_components/Pagination.jsx:11-31 | the numbers `pageNumbers` pushes before sorting: every page up to three pages, otherwise 1, the neighbours chosen by the current page, and the last page unless it is already there |
| Pagination.PageNumbers | app/_components/Pagination.jsx:11-35 | the window is the pushed page numbers rearranged in ascending order |
| Pagination.SmallWindow | app/_components/Pagination.jsx:14-17 | with at most three pages the window is `1..totalPages` on any page, and empty with no pages |
| Pagination.WindowEnds | app/_components/Pagination.jsx:19-34 | with more than three pages the window has at least four entries, starts at 1 on any page from 1 up, and ends at the last page on any page up to the last |
| Pagination.WindowShape | app/_components/Pagination.jsx:19-34 | for a page in `1..totalPages` the window is strictly ascending, lies inside `1..totalPages` and contains the page; with more than three pages it has 4 entries on pages 1, 2, T-1 and T and 5 elsewhere |
| Pagination.OutOfRangePageDuplicates | app/_components/Pagination.jsx:19-34 | on page 0 of more than three pages the window has five entries, including pages -1 and 0, which do not exist, and page 1 twice |
| Pagination.PageItemsNumbers | app/_components/Pagination.jsx:37-70 | the pager shows one button per window entry, in window order |
| Pagination.PageItems | app/_components/Pagination.jsx:37-70 | the pager has at least as many items as window entries and at most twice as many; which items they are is stated by `PageItemsNumbers` and `PageItemsWellPlaced` |
| Pagination.PageItemsWellPlaced | app/_components/Pagination.jsx:40-66 | ellipses stand only between two buttons more than one apart; adjacent buttons are at most one apart; the pager starts and ends with a button; exactly the current page is highlighted |
| Pagination.PagerFirstPage | app/_components/Pagination.jsx:11-70 | page 1 of 10 shows `1 2 3 … 10` with 1 highlighted |
| Pagination.PagerMiddlePage | app/_components/Pagination.jsx:11-70 | page 5 of 10 shows `1 … 4 5 6 … 10` with 5 highlighted |
| Pagination.PagerNearLastPage | app/_components/Pagination.jsx:11-70 | page 9 of 10 shows `1 … 8 9 10` with 9 highlighted |
| Pagination.PagerTwoPages | app/_components/Pagination.jsx:11-70 | page 2 of 2 shows `1 2` with no ellipsis |
| TodoList.PageChange | app/_components/TodoList.jsx:17-27 | a page change does nothing exactly when the page is outside `1..totalPages`, and otherwise navigates to that page with the limit unchanged |
| TodoList.ButtonsAgreeWithGuard | app/_components/Pagination.jsx:74-98 | on a page in range, Previous is disabled exactly on page 1 and Next exactly on the last page; these are the cases in which the page-change guard rejects them; otherwise they move one page |
| Pagination.PreviousDisabled | app/_components/Pagination.jsx:77-81 | Previous is disabled exactly on page 1 |
| Pagination.NextDisabled | app/_components/Pagination.jsx:94-98 | Next is disabled exactly on page `totalPages` |
| TodoList.Previous | app/_components/TodoList.jsx:68 | Previous navigates to the page before, keeping the limit, unless that page is outside `1..totalPages` |
| TodoList.Next | app/_components/TodoList.jsx:69 | Next navigates to the page after, keeping the limit, unless that page is outside `1..totalPages` |
| TodoList.NoPagesRejectsAll | app/_components/TodoList.jsx:19 | with no pages every page change is rejected, including Next from page 1, whose button stays enabled |
| TodoList.WindowButtonsNavigate | app/_components/TodoList.jsx:65-71 | every button of the window navigates to its own page with the current limit |
| TodoList.SearchByName | app/_components/TodoList.jsx:29-45 | a successful search replaces the list with the response data; a failed one leaves it unchanged |
| TodoList.SearchReplacesWholeList | app/_components/TodoList.jsx:34 | a successful search's result does not depend on the list it replaced |
| TodoList.ViewFor | app/_components/TodoList.jsx:51-73 | the empty state shows exactly when the total is zero |
| TodoList.PagerShownIffPages | app/_components/TodoList.jsx:51-71 | when the total page count is the rounded-up quotient of total and limit, the pager shows exactly when there is a page, and then its window is not empty |
| EditorHeader.Init | app/_components/EditorHeader.jsx:7-8 | the header mounts not editing, with the buffer holding the title |
| EditorHeader.FitPrefix | app/_components/EditorHeader.jsx:71 | the longest prefix of a value that fits a budget of UTF-16 code units: it fits, and one more character would not |
| EditorHeader.Clip | app/_components/EditorHeader.jsx:71 | for text entered at the end of the field, the input delivers a prefix of it that is at most 50 UTF-16 code units long: the whole text exactly when it fits, and otherwise the longest prefix that fits without splitting a character |
| EditorHeader.Save | app/_components/EditorHeader.jsx:39-47 | saving leaves edit mode; a blank buffer reverts to the title with no commit; any other buffer is committed once, trimmed, non-empty and no longer than the buffer, counted in characters or in UTF-16 code units |
| EditorHeader.Cancel | app/_components/EditorHeader.jsx:49-52 | cancelling leaves edit mode and restores the title |
| EditorHeader.Step | app/_components/EditorHeader.jsx:23-56 | only Enter and blur ever commit a title |
| EditorHeader.ClickAndTypeNeverCommit | app/_components/EditorHeader.jsx:23-29 | clicking the title enters edit mode with the buffer unchanged; typing while editing only replaces the buffer; neither commits |
| EditorHeader.EnterAndBlurAgree | app/_components/EditorHeader.jsx:31-56 | Enter and blur have the same effect |
| EditorHeader.EscapeReverts | app/_components/EditorHeader.jsx:34-52 | Escape while editing leaves edit mode, restores the title and commits nothing |
| EditorHeader.SaveBlankIsCancel | app/_components/EditorHeader.jsx:39-52 | saving a whitespace-only buffer ends like Escape, with no commit; saving anything else commits a non-empty title without outer whitespace |
| EditorHeader.PropResyncs | app/_components/EditorHeader.jsx:17-21 | a changed title prop replaces the buffer, editing or not, and commits nothing |
| EditorHeader.StepKeepsBound | app/_components/EditorHeader.jsx:61-72 | with titles of at most 50 UTF-16 code units, the buffer never holds more than 50 code units, so no commit has a JavaScript `length` above 50 |
| EditorHeader.EditSessionCommitsOnce | app/_components/EditorHeader.jsx:23-47 | click, type, Enter, for any typed value: edit mode is left, and the trimmed text the input delivered is committed exactly once when it is not blank and never otherwise; a value within 50 code units is delivered whole, so then the typed text itself decides |
| EditorHeader.ClickTypeEnter | app/_components/EditorHeader.jsx:23-47 | click, type, Enter from the mounted state ends exactly as saving the buffer the input delivered |
| EditorHeader.TypeFirst | app/_components/EditorHeader.jsx:23-29 | typing while editing commits nothing, and the session continues with the delivered value as the buffer |
| EditorHeader.ClickFirst | app/_components/EditorHeader.jsx:23-29 | a click on the heading commits nothing, and the session continues in edit mode with the buffer unchanged |
| TodoSection.Init | app/_components/TodoSection.jsx:22-28 | the section mounts with nothing selected, no editor, no modal, not deleting and scrolling free |
| TodoSection.Resize | app/_components/TodoSection.jsx:37-46 | mobile mode holds exactly below 1024 pixels; nothing else changes |
| TodoSection.Click | app/_components/TodoSection.jsx:53-69 | on mobile a click opens the modal and locks scrolling, leaving the selection alone. On desktop, a click on the selected id deselects and hides the editor; a click on another listed id selects the first record in list order with that id, as `find` does, and shows the editor; an unknown id changes nothing |
| TodoSection.CloseModal | app/_components/TodoSection.jsx:48-51 | closing the modal hides it and frees scrolling, nothing else |
| TodoSection.RenameRequest | app/_components/TodoSection.jsx:71-78 | a rename sends a PUT for the selected id exactly when something is selected |
| TodoSection.Renamed | app/_components/TodoSection.jsx:80-87 | a successful rename patches the title of every record with the id and retitles the selected copy; nothing else changes |
| TodoSection.BeginDelete | app/_components/TodoSection.jsx:100-105 | a delete is sent for the selected id exactly when something is selected and no delete is running, and it sets `deleting`; otherwise nothing changes |
| TodoSection.Deleted | app/_components/TodoSection.jsx:106-123 | a successful delete removes every record with the id, clears the selection, hides the editor and clears `deleting`; the modal and the scroll lock stay as they were |
| TodoSection.Step | app/_components/TodoSection.jsx:71-124 | a failed rename changes nothing; a failed delete only clears `deleting`; only rename and delete requests send anything |
| TodoSection.InitValid | app/_components/TodoSection.jsx:24-28 | the mounted section satisfies the invariant: no editor without a selection, scroll locked exactly while the modal is open |
| TodoSection.StepKeepsValid | app/_components/TodoSection.jsx:48-110 | every event keeps that invariant |
| TodoSection.DesktopClickToggles | app/_components/TodoSection.jsx:58-66 | on desktop, clicking a listed record twice selects it and then returns to no selection with the editor hidden |
| TodoSection.DesktopClickSwitches | app/_components/TodoSection.jsx:58-66 | on desktop, clicking another listed record switches the selection directly |
| TodoSection.MobileClickKeepsSelection | app/_components/TodoSection.jsx:53-56 | a mobile click with nothing selected opens a modal bound to no record, from which rename and delete send nothing |
| TodoSection.ResizeKeepsModal | app/_components/TodoSection.jsx:37-46 | widening the window past the breakpoint leaves an open modal open |
| TodoSection.DeleteFromModalKeepsModal | app/_components/TodoSection.jsx:106-110 | a delete from the modal leaves the modal open and scrolling locked, with nothing selected |
| TodoSection.LateRenameRetitlesOtherSelection | app/_components/TodoSection.jsx:80-87 | a rename completing after another record was selected retitles that other record's copy but not its entry in the list |
| TodoSection.RenameThenDelete | app/_components/TodoSection.jsx:80-110 | a delete discards a rename of the same record, in either completion order: renaming then deleting, or deleting then renaming, leaves the list of a delete alone |
| Editor.Init | app/_components/Editor.jsx:48-49 | the session starts clean with the placeholder document and no editor instance |
| Editor.LoadContent | app/_components/Editor.jsx:74-78 | once the editor exists, a bound record with a description replaces the document, without touching the dirty flag; otherwise the document stays |
| Editor.Create | app/_components/Editor.jsx:51-78 | creating the editor loads the bound record's description when it has one, and otherwise keeps the document |
| Editor.Update | app/_components/Editor.jsx:67-70 | an edit records the new document and sets the dirty flag, nothing else; without an editor instance nothing happens |
| Editor.Rebind | app/_components/Editor.jsx:74-78 | a new bound record replaces the document when it has a description; the dirty flag is kept either way |
| Editor.Tick | app/_components/Editor.jsx:80-113 | a tick sends something exactly when the editor exists, is dirty and is bound to a record with an id; what it sends is the whole current document for that id |
| Editor.Armed | app/_components/Editor.jsx:81 | the autosave interval runs exactly when the editor exists, there are unsaved changes and the bound record has an id |
| Editor.Saved | app/_components/Editor.jsx:116-123 | a successful save clears the dirty flag and patches the description of every record with the saved id to the document as it is now |
| Editor.Step | app/_components/Editor.jsx:67-128 | only a tick of an armed session sends; only a successful save writes the list; a failed save changes nothing |
| Editor.EditArmsAutosave | app/_components/Editor.jsx:67-87 | an edit to an editor bound to a real record arms the autosave, and the next tick sends exactly the edited document |
| Editor.CleanNeverSaves | app/_components/Editor.jsx:80-81 | a clean editor, or one bound to nothing, never sends |
| Editor.EditDuringSaveIsNotResent | app/_components/Editor.jsx:107-123 | an edit made while a save is in flight is never sent, because the success clears the dirty flag, but it is written into the shared list |
| Editor.FailedSaveRetriesLatest | app/_components/Editor.jsx:107-128 | after a failed save the autosave stays armed and the next tick sends the latest document |
| Editor.RebindDiscardsDraft | app/_components/Editor.jsx:74-87 | binding a dirty editor to a record with a description replaces the draft, and the next tick writes that description back to the record |
| Editor.RebindWithoutDescriptionCarriesDraft | app/_components/Editor.jsx:74-87 | binding a dirty editor to a record without a description keeps the draft, and the next tick saves it to the new record |
| Editor.StaleSaveLandsOnOldId | app/_components/Editor.jsx:107-123 | a save that completes after a rebind patches the id it was sent for, with the newly shown document |
| Editor.CreateLoadsBound | app/_components/Editor.jsx:48-78 | before the editor exists nothing is typed or sent; creating it shows the bound description or else the placeholder |
| TodosHead.Init | app/_components/TodosHead.jsx:11-19 | the bar mounts closed, with empty query and results, no dropdown, no spinner and no pending debounce |
| TodosHead.SearchClick | app/_components/TodosHead.jsx:45-63 | the button opens a closed bar and focuses the input. On an open bar with a non-blank query it runs the search with the untrimmed query and stays open. On an open bar with a blank query it empties the query, hides the dropdown and closes |
| TodosHead.Type | app/_components/TodosHead.jsx:82-96 | a keystroke in the open bar sets the query and makes its value the only pending debounce; nothing else changes |
| TodosHead.DebounceFire | app/_components/TodosHead.jsx:88-95 | the debounce fetches exactly when its value is non-empty, with the spinner on; an empty value hides the dropdown and the spinner; either way nothing stays pending |
| TodosHead.Arrived | app/_components/TodosHead.jsx:65-80 | a suggestion response replaces the results with its data, or none, shows the dropdown and stops the spinner; nothing else changes |
| TodosHead.Failed | app/_components/TodosHead.jsx:73-79 | a failed fetch empties the results, hides the dropdown and stops the spinner; nothing else changes |
| TodosHead.SelectResult | app/_components/TodosHead.jsx:104-107 | choosing a shown suggestion copies its title into the query and hides the dropdown, nothing else |
| TodosHead.ClearSearch | app/_components/TodosHead.jsx:109-116 | clearing returns the bar to its initial state, except a pending debounce, and refreshes the page |
| TodosHead.OutsideClick | app/_components/TodosHead.jsx:118-132 | an outside click hides the dropdown only while the suggestion list is shown, and changes nothing else |
| TodosHead.Step | app/_components/TodosHead.jsx:45-132 | only the debounce fetches, and only for its pending value; only the button runs the page search, and only on an open bar, with the query; only clear refreshes |
| TodosHead.DropdownsExclusive | app/_components/TodosHead.jsx:188-216 | the suggestion list and the "No results" box are never shown together |
| TodosHead.SuggestionListVisible | app/_components/TodosHead.jsx:165-188 | the suggestion list is rendered exactly when the bar is open, the dropdown is on and there are results |
| TodosHead.NoResultsVisible | app/_components/TodosHead.jsx:165-210 | the "No results" box is rendered exactly when the bar is open, the dropdown is on, the query is not empty, there are no results and nothing is loading |
| TodosHead.TypingLeavesOneDebounce | app/_components/TodosHead.jsx:82-96 | any burst of keystrokes leaves the last value as the query and the only pending debounce, and sends nothing |
| TodosHead.FireTwiceFetchesOnce | app/_components/TodosHead.jsx:82-96 | after a burst of keystrokes the debounce fetches once, for the last value; a second firing does nothing |
| TodosHead.LastResponseWins | app/_components/TodosHead.jsx:65-80 | the last suggestion response to arrive overwrites what earlier responses or failures set |
| TodosHead.StaleResponseClobbers | app/_components/TodosHead.jsx:65-96 | when the answer for "ab" arrives after the answer for "abc", the bar shows "abc" with the suggestions for "ab" |
| TodosHead.SpinnerClearsEarly | app/_components/TodosHead.jsx:65-80 | the first response stops the spinner while another fetch is still outstanding |
| TodosHead.ClosedBarStillFetches | app/_components/TodosHead.jsx:45-96 | a debounce pending when a blank query closes the bar still fetches, and its response turns the dropdown on while the bar is closed |
| TodosHead.OutsideClickOnlyHidesDropdown | app/_components/TodosHead.jsx:118-132 | an outside click changes only the dropdown flag; if the suggestion list was shown, afterwards neither box is shown; a shown "No results" box stays open |
| TodosHead.NoResultsOutlivesOutsideClick | app/_components/TodosHead.jsx:118-132 | typing "ab", the debounce firing and an empty suggestion response show the "No results" box, which an outside click leaves open because only the suggestion list holds `dropdownRef` |
| TodosHead.SearchSendsUntrimmed | app/_components/TodosHead.jsx:45-63 | on an open bar the button runs the page search exactly when the query is not blank, with the query as typed |

## Left out

- `handleCreateTodo` (app/_components/TodosHead.jsx:22-43) is left out. It sends an empty POST and refreshes the page, and no state of the modelled logic depends on it.
- The Tiptap editor's toolbar (`MenuButton`, `clearFormatting`, `applyHighlight` and the formatting buttons, app/_components/Editor.jsx:25-39, 93-105, 139-214) is left out. It is a foreign library. The document is an opaque HTML string that only `Update` and the content effect change.
- The Editor's `content` React state is left out. Only its initial value is used, as the placeholder document.
- The HTTP calls, `router.push`, `router.refresh`, toasts and console logging are left out. They appear only as request values, success or failure events, and the search bar's `Refresh` effect. The refresh after a successful delete (app/_components/TodoSection.jsx:111) has no label; only a later `Load` event stands for the list it brings.
- Focus handling, `document.body.style.overflow`, and the resize and mousedown listeners are left out. Each keeps only its boolean effect: scroll locked, mobile mode, dropdown hidden.
- Timer durations (500 ms debounce, 5 s interval) are left out. So is the clearing and re-arming of the interval when its dependencies change. A tick is an event that sends exactly when the arming condition holds.
- Unmount cleanup of the debounce (app/_components/TodosHead.jsx:98-102) is left out, because the model has no unmount.
- There are two Editor instances, the desktop pane and the mobile modal. Each runs the same `Editor` machine, and the model describes one of them.
- `app/page.js` is left out, and the to-do context provider is not part of this model. The list is a `seq<Todo>` and the pagination numbers are inputs.
- `TodoList.SearchByName`: a success response without a `data` field would set the list to `undefined`. The model has no such response: a successful search always carries a list.
- `EditorHeader.Clip`: the browser does not truncate a value set by script. The 50-code-unit limit is modelled only for what the user types, and a longer `title` prop is kept whole. Truncation is modelled at character boundaries: the longest prefix that fits in 50 code units. How a browser treats a pasted surrogate pair or grapheme cluster that straddles the limit may differ. Every change is modelled as text entered at the end of the field. The browser cuts the inserted text at the caret and keeps only what fits in the room left, so an insertion before the end keeps the old tail rather than a prefix of the attempted value.
- `Editor.LoadContent`: assumes that Tiptap's `setContent` (app/_components/Editor.jsx:76) does not fire `onUpdate`, so loading a description never sets the dirty flag. That is the library's default. If the library version in use emitted the update, every selection of a record with a description would arm the autosave.
- React's development-mode double invocation of state updaters (the `setIsOpen` updater in `handleSearchClick` runs its side effects inside the updater) is left out. Each handler runs once.

=== FILE: editor.dfy ===
/** The rich-text editor of the selected record
    (app/_components/Editor.jsx): the editor's document, the dirty flag, the
    record it is bound to, and the five-second autosave that sends the
    document as the record's description. The save request and its outcome
    are separate events, so a response can arrive after further edits or
    after the editor was bound to another record. */
module Editor {
  import opened Options
  import opened Store

  /** The document the editor starts with before any record is loaded. */
  const Placeholder: string := "<p>Start typing here...</p>"

  /** `ready` is whether the editor instance exists (it is created after
      the first render); `html` is its current document; `bound` is the
      `initialContent` prop. */
  datatype Session = Session(ready: bool, html: string, hasChanged: bool, bound: Option<Todo>)

  /** A PUT of `description` to the record `id`. */
  datatype SaveRequest = SaveRequest(id: string, description: string)

  datatype Event =
    | Created
    | Edited(html: string)
    | Rebound(todo: Option<Todo>)
    | Ticked
    | SaveSucceeded(id: string)
    | SaveFailed

  datatype Outcome = Outcome(session: Session, todos: seq<Todo>, request: Option<SaveRequest>)

  /** The description of the bound record, or "" when there is none (a
      missing description is falsy, as is an empty one). */
  function BoundDescription(s: Session): string {
    match s.bound
    case Some(t) => t.description
    case None => ""
  }

  /** The id of the bound record, or "" when there is none. */
  function BoundId(s: Session): string {
    match s.bound
    case Some(t) => t.id
    case None => ""
  }

  function Init(bound: Option<Todo>): (s: Session)
    ensures !s.ready && !s.hasChanged && s.html == Placeholder && s.bound == bound
  {
    Session(false, Placeholder, false, bound)
  }

  /** The content effect: once the editor exists, a bound record with a
      non-empty description replaces the document; otherwise the document
      stays. Setting content programmatically does not fire `onUpdate`, so
      the dirty flag is untouched. */
  function LoadContent(s: Session): (r: Session)
    ensures r.ready == s.ready && r.hasChanged == s.hasChanged && r.bound == s.bound
    ensures s.ready && BoundDescription(s) != "" ==> r.html == BoundDescription(s)
    ensures !(s.ready && BoundDescription(s) != "") ==> r.html == s.html
  {
    if s.ready && BoundDescription(s) != "" then s.(html := BoundDescription(s)) else s
  }

  /** The editor instance appears; the content effect then runs. */
  function Create(s: Session): (r: Session)
    ensures r.ready && r.hasChanged == s.hasChanged && r.bound == s.bound
    ensures !s.ready ==> r.html == (if BoundDescription(s) != "" then BoundDescription(s) else s.html)
    ensures s.ready ==> r == s
  {
    if s.ready then s else LoadContent(s.(ready := true))
  }

  /** `onUpdate`: the user changed the document. Without an editor instance
      there is nothing to type into. */
  function Update(s: Session, html: string): (r: Session)
    ensures s.ready ==> r.hasChanged && r.html == html
    ensures r.(html := s.html, hasChanged := s.hasChanged) == s
    ensures !s.ready ==> r == s
  {
    if s.ready then s.(html := html, hasChanged := true) else s
  }

  /** The `initialContent` prop changes (a new selection, or a new copy of
      the same record); the content effect runs again. */
  function Rebind(s: Session, todo: Option<Todo>): (r: Session)
    ensures r.bound == todo && r.ready == s.ready && r.hasChanged == s.hasChanged
    ensures r.html == (if s.ready && todo.Some? && todo.value.description != "" then todo.value.description else s.html)
  {
    LoadContent(s.(bound := todo))
  }

  /** Whether the autosave interval is running: an editor exists, there are
      unsaved changes, and the bound record has an id. */
  predicate Armed(s: Session) {
    s.ready && s.hasChanged && BoundId(s) != ""
  }

  /** One autosave tick: while armed, the current document is sent for the
      bound id; otherwise no interval exists and nothing happens. */
  function Tick(s: Session): (r: Option<SaveRequest>)
    ensures r.Some? <==> Armed(s)
    ensures r.Some? ==> r.value.id == s.bound.value.id && r.value.description == s.html
  {
    if Armed(s) then Some(SaveRequest(BoundId(s), s.html)) else None
  }

  /** A save of `id` succeeded: the dirty flag is cleared, and every record
      with that id in the shared list gets the document as it is NOW, not as
      it was sent. */
  function Saved(s: Session, todos: seq<Todo>, id: string): (r: Outcome)
    ensures !r.session.hasChanged && r.session.(hasChanged := s.hasChanged) == s
    ensures r.request.None?
    ensures r.todos == Patch(todos, id, Description, s.html)
  {
    Outcome(s.(hasChanged := false), Patch(todos, id, Description, s.html), None)
  }

  /** One event, against the shared list. Only a tick sends anything and
      only a successful save writes the list; a failed save changes
      nothing, so the next tick tries again. */
  function Step(s: Session, todos: seq<Todo>, e: Event): (r: Outcome)
    ensures r.request.Some? ==> e.Ticked? && Armed(s)
    ensures !e.SaveSucceeded? ==> r.todos == todos
    ensures e.Ticked? || e.SaveFailed? ==> r.session == s
  {
    match e
    case Created => Outcome(Create(s), todos, None)
    case Edited(html) => Outcome(Update(s, html), todos, None)
    case Rebound(todo) => Outcome(Rebind(s, todo), todos, None)
    case Ticked => Outcome(s, todos, Tick(s))
    case SaveSucceeded(id) => Saved(s, todos, id)
    case SaveFailed => Outcome(s, todos, None)
  }

  /** An edit to a ready editor bound to a real record arms the autosave,
      and the next tick sends exactly the edited document. */
  lemma EditArmsAutosave(s: Session, html: string)
    requires s.ready && s.bound.Some? && s.bound.value.id != ""
    ensures Armed(Update(s, html))
    ensures Tick(Update(s, html)) == Some(SaveRequest(s.bound.value.id, html))
  {
  }

  /** A clean editor, or one bound to nothing, never sends. */
  lemma CleanNeverSaves(s: Session)
    requires !s.hasChanged || s.bound.None?
    ensures Tick(s).None?
  {
  }

  /** An edit made while a save is in flight is lost from the autosave: the
      success clears the dirty flag, so no further tick sends it, while the
      shared list records the newer document — which the server never
      received. */
  lemma EditDuringSaveIsNotResent(s: Session, todos: seq<Todo>, later: string)
    requires Armed(s) && s.html != later
    ensures var req := Tick(s).value;
            var after := Saved(Update(s, later), todos, req.id);
            && req.description == s.html
            && Tick(after.session).None?
            && after.todos == Patch(todos, req.id, Description, later)
  {
  }

  /** A failed save leaves the editor armed, and the next tick sends the
      document as it is then, edits made in between included. */
  lemma FailedSaveRetriesLatest(s: Session, todos: seq<Todo>, later: string)
    requires Armed(s)
    ensures var r := Step(s, todos, SaveFailed);
            && Armed(r.session)
            && Tick(Update(r.session, later)) == Some(SaveRequest(s.bound.value.id, later))
  {
  }

  /** Binding a dirty editor to a record with a description replaces the
      unsaved draft with that description and keeps the dirty flag, so the
      next tick writes the record's own description back to it. This is what
      happens when the title of the selected record is renamed: the section
      rebinds the editor to a retitled copy carrying the description from
      the time of selection. */
  lemma RebindDiscardsDraft(s: Session, t: Todo)
    requires Armed(s) && t.description != "" && t.id != ""
    ensures Rebind(s, Some(t)).html == t.description
    ensures Tick(Rebind(s, Some(t))) == Some(SaveRequest(t.id, t.description))
  {
  }

  /** Binding a dirty editor to a record without a description keeps the
      draft and the dirty flag, so the next tick saves the previous record's
      draft as the new record's description. */
  lemma RebindWithoutDescriptionCarriesDraft(s: Session, t: Todo)
    requires Armed(s) && t.description == "" && t.id != ""
    ensures Tick(Rebind(s, Some(t))) == Some(SaveRequest(t.id, s.html))
  {
  }

  /** A save that completes after the editor was rebound writes to the id
      it was sent for, and it writes the document now shown — the newly
      bound record's description, when it has one. */
  lemma StaleSaveLandsOnOldId(s: Session, todos: seq<Todo>, t: Todo)
    requires Armed(s) && t.description != ""
    ensures var req := Tick(s).value;
            var after := Saved(Rebind(s, Some(t)), todos, req.id);
            && req.id == s.bound.value.id
            && after.todos == Patch(todos, s.bound.value.id, Description, t.description)
  {
  }

  /** Before the editor exists nothing is typed or sent; creating it loads
      the bound record's description when there is one. */
  lemma CreateLoadsBound(t: Option<Todo>, html: string)
    ensures Update(Init(t), html) == Init(t)
    ensures Tick(Init(t)).None?
    ensures t.Some? && t.value.description != "" ==> Create(Init(t)).html == t.value.description
    ensures !(t.Some? && t.value.description != "") ==> Create(Init(t)).html == Placeholder
  {
  }
}

=== FILE: editor_header.dfy ===
/** The title line of the editor (app/_components/EditorHeader.jsx): a
    small state machine over `(isEditing, currentTitle)` that turns clicks,
    typing, Enter, Escape and blur into at most one title commit. The `title`
    prop is an input of every step. */
module EditorHeader {
  import opened Options
  import opened Text

  /** The `maxLength` of the title input. */
  const MaxLength: nat := 50

  /** `isEditing` and the edit buffer `currentTitle`. */
  datatype Header = Header(isEditing: bool, buffer: string)

  datatype Key = Enter | Escape | OtherKey

  /** The inputs the header reacts to. `Change` carries the value the user
      tried to enter, as if typed or pasted at the end of the field, before
      the input's length limit applies. `TitleProp` is a new value of the
      `title` prop (after a rename, or when another record is bound). */
  datatype Event =
    | TitleClick
    | Change(value: string)
    | KeyDown(key: Key)
    | Blur
    | TitleProp(title: string)

  /** The new header and the title passed to `onTitleChange`, if any. */
  datatype Outcome = Outcome(header: Header, commit: Option<string>)

  /** The state on mount: not editing, buffer initialised from the prop. */
  function Init(title: string): (h: Header)
    ensures !h.isEditing && h.buffer == title
  {
    Header(false, title)
  }

  /** The length of the longest prefix of `value` that fits in `budget`
      UTF-16 code units. */
  function FitPrefix(value: string, budget: nat): (n: nat)
    ensures n <= |value|
    ensures Utf16Length(value[..n]) <= budget
    ensures n < |value| ==> Utf16Length(value[..n + 1]) > budget
  {
    if |value| == 0 then 0
    else if CodeUnits(value[0]) > budget then
      Utf16Prefix(value, 1);
      0
    else
      var m := FitPrefix(value[1..], budget - CodeUnits(value[0]));
      Utf16Prefix(value, m + 1);
      assert m + 1 < |value| ==> Utf16Length(value[..m + 2]) > budget by {
        if m + 1 < |value| {
          Utf16Prefix(value, m + 2);
        }
      }
      m + 1
  }

  /** A non-empty prefix: the first character's code units and the rest. */
  lemma Utf16Prefix(value: string, k: nat)
    requires 0 < k <= |value|
    ensures Utf16Length(value[..k]) == CodeUnits(value[0]) + Utf16Length(value[1..][..k - 1])
  {
    assert value[..k] == [value[0]] + value[1..][..k - 1];
    Utf16Cons(value[0], value[1..][..k - 1]);
  }

  /** The value the input delivers for text entered at the end of the
      field: `maxLength` counts UTF-16 code units (JavaScript's `length`),
      and the browser keeps the longest prefix that fits, without splitting
      a character. */
  function Clip(value: string): (r: string)
    ensures Utf16Length(r) <= MaxLength && |r| <= MaxLength
    ensures |r| <= |value| && r == value[..|r|]
    ensures Utf16Length(value) <= MaxLength <==> r == value
    ensures |r| < |value| ==> Utf16Length(value[..|r| + 1]) > MaxLength
  {
    var n := FitPrefix(value, MaxLength);
    assert n < |value| ==> Utf16Length(value) > MaxLength by {
      if n < |value| {
        Utf16Slice(value, 0, n + 1);
        assert value[0..n + 1] == value[..n + 1];
      }
    }
    assert value[..|value|] == value;
    value[..n]
  }

  /** `handleSaveTitle` (Enter and blur): leaves edit mode; a blank buffer
      is reset to the prop with no commit; otherwise the trimmed buffer is
      committed exactly once and the buffer itself is kept. */
  function Save(h: Header, title: string): (r: Outcome)
    ensures !r.header.isEditing
    ensures Blank(h.buffer) ==> r.header.buffer == title && r.commit.None?
    ensures !Blank(h.buffer) ==> r.header.buffer == h.buffer && r.commit == Some(Trim(h.buffer))
    ensures r.commit.Some? ==> r.commit.value != [] && |r.commit.value| <= |h.buffer|
    ensures r.commit.Some? ==> Utf16Length(r.commit.value) <= Utf16Length(h.buffer)
  {
    TrimUtf16(h.buffer);
    var trimmed := Trim(h.buffer);
    if trimmed == [] then Outcome(Header(false, title), None)
    else Outcome(Header(false, h.buffer), Some(trimmed))
  }

  /** `handleCancelEdit` (Escape): leaves edit mode and resets the buffer to
      the prop. */
  function Cancel(h: Header, title: string): (r: Header)
    ensures !r.isEditing && r.buffer == title
  {
    Header(false, title)
  }

  /** One event with the current `title` prop. The input exists only while
      editing and the clickable heading only while not, so events aimed at
      the absent element change nothing. */
  function Step(h: Header, title: string, e: Event): (r: Outcome)
    ensures r.commit.Some? ==> e == KeyDown(Enter) || e == Blur
  {
    match e
    case TitleClick =>
      Outcome(if h.isEditing then h else h.(isEditing := true), None)
    case Change(value) =>
      Outcome(if h.isEditing then h.(buffer := Clip(value)) else h, None)
    case KeyDown(key) =>
      if !h.isEditing then Outcome(h, None)
      else if key == Enter then Save(h, title)
      else if key == Escape then Outcome(Cancel(h, title), None)
      else Outcome(h, None)
    case Blur =>
      if h.isEditing then Save(h, title) else Outcome(h, None)
    case TitleProp(newTitle) =>
      Outcome(if newTitle != title then h.(buffer := newTitle) else h, None)
  }

  /** Clicking the title enters edit mode and leaves the buffer alone;
      typing while editing only replaces the buffer. Neither commits. */
  lemma ClickAndTypeNeverCommit(h: Header, title: string, value: string)
    ensures !h.isEditing ==> Step(h, title, TitleClick) == Outcome(Header(true, h.buffer), None)
    ensures h.isEditing ==> Step(h, title, Change(value)) == Outcome(Header(true, Clip(value)), None)
  {
  }

  /** Enter and blur go through the same save path. */
  lemma EnterAndBlurAgree(h: Header, title: string)
    ensures Step(h, title, KeyDown(Enter)) == Step(h, title, Blur)
  {
  }

  /** Escape leaves edit mode, restores the prop and never commits. */
  lemma EscapeReverts(h: Header, title: string)
    requires h.isEditing
    ensures Step(h, title, KeyDown(Escape)) == Outcome(Header(false, title), None)
  {
  }

  /** Saving a whitespace-only buffer ends in the same state as Escape and
      makes no commit; saving anything else commits a title without outer
      whitespace that is not empty. */
  lemma SaveBlankIsCancel(h: Header, title: string)
    requires h.isEditing
    ensures Blank(h.buffer) ==> Step(h, title, Blur) == Outcome(Cancel(h, title), None)
    ensures !Blank(h.buffer) ==>
              var c := Step(h, title, Blur).commit;
              c.Some? && c.value != [] && !IsSpace(c.value[0]) && !IsSpace(c.value[|c.value| - 1])
  {
  }

  /** A new `title` prop resyncs the buffer, whether or not editing. */
  lemma PropResyncs(h: Header, title: string, newTitle: string)
    requires newTitle != title
    ensures Step(h, title, TitleProp(newTitle)) == Outcome(h.(buffer := newTitle), None)
  {
  }

  /** The buffer fits the input's limit of 50 UTF-16 code units. */
  predicate Bounded(h: Header) {
    Utf16Length(h.buffer) <= MaxLength
  }

  /** The buffer never exceeds the input's limit when titles do not, so no
      commit has a JavaScript `length` above 50. */
  lemma StepKeepsBound(h: Header, title: string, e: Event)
    requires Bounded(h) && Utf16Length(title) <= MaxLength
    requires e.TitleProp? ==> Utf16Length(e.title) <= MaxLength
    ensures Bounded(Step(h, title, e).header)
    ensures Step(h, title, e).commit.Some? ==> Utf16Length(Step(h, title, e).commit.value) <= MaxLength
  {
  }

  /** The commit of one step as a list of zero or one titles. */
  function Committed(o: Outcome): seq<string> {
    if o.commit.Some? then [o.commit.value] else []
  }

  /** A whole interaction: the header after a sequence of events, with the
      commits made along the way, in order. */
  function Run(h: Header, title: string, events: seq<Event>): (r: (Header, seq<string>))
    decreases |events|
  {
    if |events| == 0 then (h, [])
    else
      var o := Step(h, title, events[0]);
      var nextTitle := if events[0].TitleProp? then events[0].title else title;
      var rest := Run(o.header, nextTitle, events[1..]);
      (rest.0, Committed(o) + rest.1)
  }

  /** Click, type, Enter: exactly one commit, of the trimmed text the input
      delivered, when that text is not blank, and none otherwise; edit mode
      is left either way. A value within the limit is delivered whole. */
  lemma EditSessionCommitsOnce(title: string, value: string)
    ensures var r := Run(Init(title), title, [TitleClick, Change(value), KeyDown(Enter)]);
            && !r.0.isEditing
            && r.1 == (if Blank(Clip(value)) then [] else [Trim(Clip(value))])
            && (Utf16Length(value) <= MaxLength ==> r.1 == if Blank(value) then [] else [Trim(value)])
  {
    var o := Save(Header(true, Clip(value)), title);
    ClickTypeEnter(title, value);
    assert Committed(o) == if Blank(Clip(value)) then [] else [Trim(Clip(value))];
  }

  /** Click, type, Enter from the mounted state is the save of what the
      input delivered. */
  lemma ClickTypeEnter(title: string, value: string)
    ensures var o := Save(Header(true, Clip(value)), title);
            Run(Init(title), title, [TitleClick, Change(value), KeyDown(Enter)]) == (o.header, Committed(o))
  {
    ClickFirst(Init(title), title, [Change(value), KeyDown(Enter)]);
    assert [TitleClick] + [Change(value), KeyDown(Enter)] == [TitleClick, Change(value), KeyDown(Enter)];
    TypeThenEnter(title, value);
  }

  /** A click on the heading commits nothing and only enters edit mode. */
  lemma ClickFirst(h: Header, title: string, rest: seq<Event>)
    requires !h.isEditing
    ensures Run(h, title, [TitleClick] + rest) == Run(Header(true, h.buffer), title, rest)
  {
    RunCons(h, title, TitleClick, rest);
    assert Step(h, title, TitleClick) == Outcome(Header(true, h.buffer), None);
    var tail := Run(Header(true, h.buffer), title, rest);
    assert [] + tail.1 == tail.1;
  }

  /** Typing while editing commits nothing and only replaces the buffer by
      what the input delivers. */
  lemma TypeFirst(h: Header, title: string, value: string, rest: seq<Event>)
    requires h.isEditing
    ensures Run(h, title, [Change(value)] + rest) == Run(Header(true, Clip(value)), title, rest)
  {
    RunCons(h, title, Change(value), rest);
    assert Step(h, title, Change(value)) == Outcome(Header(true, Clip(value)), None);
    var tail := Run(Header(true, Clip(value)), title, rest);
    assert [] + tail.1 == tail.1;
  }

  /** While editing, typing then Enter is the save of what the input
      delivered. */
  lemma TypeThenEnter(title: string, value: string)
    ensures var o := Save(Header(true, Clip(value)), title);
            Run(Header(true, title), title, [Change(value), KeyDown(Enter)]) == (o.header, Committed(o))
  {
    var typed := Header(true, Clip(value));
    assert Run(Header(true, title), title, [Change(value), KeyDown(Enter)]) == Run(typed, title, [KeyDown(Enter)]) by {
      TypeFirst(Header(true, title), title, value, [KeyDown(Enter)]);
      assert [Change(value)] + [KeyDown(Enter)] == [Change(value), KeyDown(Enter)];
    }
    assert Run(typed, title, [KeyDown(Enter)]) == (Save(typed, title).header, Committed(Save(typed, title))) by {
      RunSingle(typed, title, KeyDown(Enter));
    }
  }

  /** Running a single non-prop event is its step. */
  lemma RunSingle(h: Header, title: string, e: Event)
    requires !e.TitleProp?
    ensures Run(h, title, [e]) == (Step(h, title, e).header, Committed(Step(h, title, e)))
  {
    var o := Step(h, title, e);
    assert [e] == [e] + [];
    RunCons(h, title, e, []);
    assert Committed(o) + [] == Committed(o);
  }

  /** Running a non-prop event first: its step, then the rest. */
  lemma RunCons(h: Header, title: string, e: Event, rest: seq<Event>)
    requires !e.TitleProp?
    ensures Run(h, title, [e] + rest)
         == (Run(Step(h, title, e).header, title, rest).0,
             Committed(Step(h, title, e)) + Run(Step(h, title, e).header, title, rest).1)
  {
    assert ([e] + rest)[1..] == rest;
  }
}

=== FILE: options.dfy ===
/** The optional value used wherever the source reads a value that may be
    `null` or `undefined`. */
module Options {

  datatype Option<+T> = None | Some(value: T) {

    /** The value, or `default` when absent (JavaScript's `x || default`
        for values that are never falsy when present). */
    function GetOr(default: T): T {
      match this
      case Some(v) => v
      case None => default
    }
  }
}

=== FILE: pagination.dfy ===
/** The pager of the to-do list (app/_components/Pagination.jsx): the window
    of page numbers shown around the current page, the ellipsis markers put
    into its gaps, and when Previous and Next are disabled. */
module Pagination {
  import opened Sorting

  /** The integers `lo..hi` in ascending order; empty when `hi < lo`. */
  function Range(lo: int, hi: int): (r: seq<int>)
    decreases hi - lo
    ensures |r| == if hi < lo then 0 else hi - lo + 1
    ensures forall i | 0 <= i < |r| :: r[i] == lo + i
  {
    if hi < lo then [] else [lo] + Range(lo + 1, hi)
  }

  /** The numbers `pageNumbers` pushes, in push order, before it sorts them. */
  function Pushed(page: int, totalPages: int): seq<int> {
    if totalPages <= 3 then Range(1, totalPages)
    else
      var middle :=
        if page == 1 || page == 2 then [2, 3]
        else if page == totalPages || page == totalPages - 1 then [totalPages - 2, totalPages - 1]
        else [page - 1, page, page + 1];
      var numbers := [1] + middle;
      if totalPages in numbers then numbers else numbers + [totalPages]
  }

  /** The pushed numbers spelled out, case by case, for more than three pages. */
  lemma PushedShape(page: int, totalPages: int)
    requires totalPages > 3
    ensures Pushed(page, totalPages) ==
              if page == 1 || page == 2 then [1, 2, 3, totalPages]
              else if page == totalPages || page == totalPages - 1 then
                [1, totalPages - 2, totalPages - 1, totalPages]
              else if page == totalPages + 1 then [1, totalPages, totalPages + 1, totalPages + 2]
              else [1, page - 1, page, page + 1, totalPages]
  {
  }

  /** `pageNumbers`: the pushed numbers, sorted numerically. */
  function PageNumbers(page: int, totalPages: int): (r: seq<int>)
    ensures Ascending(r)
    ensures |r| == |Pushed(page, totalPages)|
    ensures multiset(r) == multiset(Pushed(page, totalPages))
  {
    SortAscending(Pushed(page, totalPages))
  }

  /** With at most three pages the window is every page, `1..totalPages`,
      for any current page; it is empty when there are no pages. */
  lemma SmallWindow(page: int, totalPages: int)
    requires totalPages <= 3
    ensures PageNumbers(page, totalPages) == Range(1, totalPages)
    ensures totalPages <= 0 ==> PageNumbers(page, totalPages) == []
  {
    SortFixpoint(Range(1, totalPages));
  }

  /** With more than three pages the window starts at page 1 whenever the
      current page is at least 1, and ends at the last page whenever the
      current page is at most the last page. */
  lemma WindowEnds(page: int, totalPages: int)
    requires totalPages > 3
    ensures |PageNumbers(page, totalPages)| >= 4
    ensures page >= 1 ==> PageNumbers(page, totalPages)[0] == 1
    ensures page <= totalPages ==>
              PageNumbers(page, totalPages)[|PageNumbers(page, totalPages)| - 1] == totalPages
  {
    assert |Pushed(page, totalPages)| >= 4 by {
      PushedShape(page, totalPages);
    }
    if page >= 1 {
      WindowStartsAtOne(page, totalPages);
    }
    if page <= totalPages {
      WindowEndsAtLast(page, totalPages);
    }
  }

  lemma WindowStartsAtOne(page: int, totalPages: int)
    requires totalPages > 3 && page >= 1
    ensures PageNumbers(page, totalPages)[0] == 1
  {
    var p := Pushed(page, totalPages);
    assert |p| >= 4 && p[0] == 1 && forall i | 0 <= i < |p| :: 1 <= p[i] by {
      PushedShape(page, totalPages);
    }
    AscendingPermutationHead(p, PageNumbers(page, totalPages), 1);
  }

  lemma WindowEndsAtLast(page: int, totalPages: int)
    requires totalPages > 3 && page <= totalPages
    ensures PageNumbers(page, totalPages)[|PageNumbers(page, totalPages)| - 1] == totalPages
  {
    var p := Pushed(page, totalPages);
    PushedBelowLast(page, totalPages);
    var w := PageNumbers(page, totalPages);
    AscendingPermutationLast(p, w, totalPages);
    assert w[|w| - 1] == totalPages;
  }

  /** Up to the last page, the pushed numbers include the last page and
      none above it. */
  lemma PushedBelowLast(page: int, totalPages: int)
    requires totalPages > 3 && page <= totalPages
    ensures totalPages in Pushed(page, totalPages)
    ensures forall i | 0 <= i < |Pushed(page, totalPages)| :: Pushed(page, totalPages)[i] <= totalPages
  {
    PushedShape(page, totalPages);
  }

  /** For a current page inside `1..totalPages` the window is strictly
      ascending, stays inside `1..totalPages`, contains the current page, and
      (with more than three pages) has four entries at either end of the
      range and five elsewhere. */
  lemma WindowShape(page: int, totalPages: int)
    requires 1 <= page <= totalPages
    ensures StrictlyAscending(PageNumbers(page, totalPages))
    ensures forall i | 0 <= i < |PageNumbers(page, totalPages)| ::
              1 <= PageNumbers(page, totalPages)[i] <= totalPages
    ensures page in PageNumbers(page, totalPages)
    ensures totalPages > 3 ==>
              |PageNumbers(page, totalPages)|
              == if page in {1, 2, totalPages - 1, totalPages} then 4 else 5
  {
    if totalPages <= 3 {
      SmallWindowShape(page, totalPages);
    } else {
      LargeWindowShape(page, totalPages);
    }
  }

  lemma SmallWindowShape(page: int, totalPages: int)
    requires 1 <= page <= totalPages <= 3
    ensures StrictlyAscending(PageNumbers(page, totalPages))
    ensures forall i | 0 <= i < |PageNumbers(page, totalPages)| ::
              1 <= PageNumbers(page, totalPages)[i] <= totalPages
    ensures page in PageNumbers(page, totalPages)
  {
    SmallWindow(page, totalPages);
    assert Range(1, totalPages)[page - 1] == page;
  }

  lemma LargeWindowShape(page: int, totalPages: int)
    requires 1 <= page <= totalPages && totalPages > 3
    ensures StrictlyAscending(PageNumbers(page, totalPages))
    ensures forall i | 0 <= i < |PageNumbers(page, totalPages)| ::
              1 <= PageNumbers(page, totalPages)[i] <= totalPages
    ensures page in PageNumbers(page, totalPages)
    ensures |PageNumbers(page, totalPages)|
            == if page in {1, 2, totalPages - 1, totalPages} then 4 else 5
  {
    PushedInRange(page, totalPages);
    SortFixpoint(Pushed(page, totalPages));
  }

  /** For an in-range page the pushed numbers are already strictly ascending. */
  lemma PushedInRange(page: int, totalPages: int)
    requires 1 <= page <= totalPages && totalPages > 3
    ensures StrictlyAscending(Pushed(page, totalPages))
    ensures forall i | 0 <= i < |Pushed(page, totalPages)| :: 1 <= Pushed(page, totalPages)[i] <= totalPages
    ensures page in Pushed(page, totalPages)
    ensures |Pushed(page, totalPages)| == if page in {1, 2, totalPages - 1, totalPages} then 4 else 5
  {
    var p := Pushed(page, totalPages);
    PushedShape(page, totalPages);
    if page == 1 || page == 2 {
      assert p == [1, 2, 3, totalPages];
    } else if page == totalPages || page == totalPages - 1 {
      assert p == [1, totalPages - 2, totalPages - 1, totalPages];
    } else {
      assert p == [1, page - 1, page, page + 1, totalPages];
    }
  }

  /** Outside `1..totalPages` the window is not a set of pages: on page 0
      of more than three pages it holds pages -1 and 0, which do not exist,
      and page 1 twice. */
  lemma OutOfRangePageDuplicates(totalPages: int)
    requires totalPages > 3
    ensures var w := PageNumbers(0, totalPages);
            && |w| == 5 && multiset(w)[1] == 2
            && -1 in w && 0 in w && totalPages in w
  {
    assert Pushed(0, totalPages) == [1, -1, 0, 1, totalPages] by {
      PushedShape(0, totalPages);
    }
    OutOfRangeCounts(PageNumbers(0, totalPages), totalPages);
  }

  lemma OutOfRangeCounts(w: seq<int>, totalPages: int)
    requires totalPages > 3
    requires multiset(w) == multiset([1, -1, 0, 1, totalPages])
    ensures |w| == 5 && multiset(w)[1] == 2
    ensures -1 in w && 0 in w && totalPages in w
  {
    assert |w| == |multiset(w)|;
    assert -1 in multiset(w) && 0 in multiset(w) && totalPages in multiset(w);
  }

  /** One element of the pager: a page button (highlighted when it is the
      current page) or an ellipsis marker. */
  datatype Item = PageButton(number: int, current: bool) | Ellipsis

  /** The page numbers of the buttons, in order. */
  function Numbers(items: seq<Item>): seq<int> {
    if |items| == 0 then []
    else (if items[0].PageButton? then [items[0].number] else []) + Numbers(items[1..])
  }

  /** The numbers of two runs of items are those of each run, in order. */
  lemma {:induction false} NumbersConcat(a: seq<Item>, b: seq<Item>)
    ensures Numbers(a + b) == Numbers(a) + Numbers(b)
  {
    if |a| == 0 {
      assert a + b == b;
    } else {
      var c := a + b;
      assert c[0] == a[0] && c[1..] == a[1..] + b;
      NumbersConcat(a[1..], b);
    }
  }

  /** Ellipses stand only between two buttons whose numbers differ by more
      than one, adjacent buttons differ by at most one, the first and last
      items are buttons, and exactly the button of the current page is
      highlighted. */
  ghost predicate WellPlaced(page: int, r: seq<Item>) {
    && (|r| > 0 ==> r[0].PageButton? && r[|r| - 1].PageButton?)
    && (forall k | 0 <= k < |r| && r[k].PageButton? :: r[k].current <==> r[k].number == page)
    && (forall k | 0 <= k < |r| - 1 && r[k].PageButton? && r[k + 1].PageButton? ::
          r[k + 1].number - r[k].number <= 1)
    && (forall k | 0 <= k < |r| && r[k].Ellipsis? ::
          && 0 < k < |r| - 1
          && r[k - 1].PageButton? && r[k + 1].PageButton?
          && r[k + 1].number - r[k - 1].number > 1)
  }

  /** `pageButtons`: one button per page number, in order, with an ellipsis
      before every number that is more than one above its predecessor. */
  function PageItems(page: int, numbers: seq<int>): (r: seq<Item>)
    ensures |numbers| <= |r| <= 2 * |numbers|
  {
    if |numbers| == 0 then []
    else
      var prefix := numbers[..|numbers| - 1];
      var n := numbers[|numbers| - 1];
      var gap := if |prefix| > 0 && n - prefix[|prefix| - 1] > 1 then [Ellipsis] else [];
      PageItems(page, prefix) + gap + [PageButton(n, page == n)]
  }

  /** The pager shows every page number of the window once, in order. */
  lemma {:induction false} PageItemsNumbers(page: int, numbers: seq<int>)
    ensures Numbers(PageItems(page, numbers)) == numbers
  {
    if |numbers| > 0 {
      var prefix := numbers[..|numbers| - 1];
      var n := numbers[|numbers| - 1];
      var front := PageItems(page, prefix);
      var gap := if |prefix| > 0 && n - prefix[|prefix| - 1] > 1 then [Ellipsis] else [];
      var b := PageButton(n, page == n);
      assert PageItems(page, numbers) == front + gap + [b];
      assert Numbers(front + gap + [b]) == prefix + [n] by {
        assert Numbers(front + gap) == prefix by {
          PageItemsNumbers(page, prefix);
          if gap == [Ellipsis] {
            NumbersSkipEllipsis(front);
          } else {
            assert front + gap == front;
          }
        }
        NumbersSnocButton(front + gap, b);
      }
      assert numbers == prefix + [n];
    }
  }

  /** A button appended to the items appends its number. */
  lemma NumbersSnocButton(items: seq<Item>, b: Item)
    requires b.PageButton?
    ensures Numbers(items + [b]) == Numbers(items) + [b.number]
  {
    NumbersConcat(items, [b]);
  }

  /** The pager places its ellipses exactly in the gaps wider than one and
      highlights exactly the current page. */
  lemma {:induction false} PageItemsWellPlaced(page: int, numbers: seq<int>)
    ensures WellPlaced(page, PageItems(page, numbers))
  {
    if |numbers| > 0 {
      var prefix := numbers[..|numbers| - 1];
      var n := numbers[|numbers| - 1];
      var front := PageItems(page, prefix);
      var gap := if |prefix| > 0 && n - prefix[|prefix| - 1] > 1 then [Ellipsis] else [];
      assert WellPlaced(page, front) by {
        PageItemsWellPlaced(page, prefix);
      }
      assert |front| == 0 ==> gap == [] by {
        PageItemsNumbers(page, prefix);
      }
      assert |front| > 0 ==> gap == if n - front[|front| - 1].number > 1 then [Ellipsis] else [] by {
        if |front| > 0 {
          PageItemsWellPlaced(page, prefix);
          PageItemsNumbers(page, prefix);
          LastButtonNumber(front);
        }
      }
      AppendButton(page, front, gap, n);
      assert PageItems(page, numbers) == front + gap + [PageButton(n, page == n)];
    }
  }

  /** An ellipsis contributes no page number. */
  lemma NumbersSkipEllipsis(items: seq<Item>)
    ensures Numbers(items + [Ellipsis]) == Numbers(items)
  {
    NumbersConcat(items, [Ellipsis]);
  }

  /** The last item, when it is a button, carries the last number. */
  lemma LastButtonNumber(items: seq<Item>)
    requires |items| > 0 && items[|items| - 1].PageButton?
    ensures |Numbers(items)| > 0
    ensures Numbers(items)[|Numbers(items)| - 1] == items[|items| - 1].number
  {
    var front := items[..|items| - 1];
    assert items == front + [items[|items| - 1]];
    NumbersSnocButton(front, items[|items| - 1]);
  }

  /** Appending a button, after an ellipsis exactly when the gap exceeds one,
      keeps the items well placed. */
  lemma AppendButton(page: int, front: seq<Item>, gap: seq<Item>, n: int)
    requires WellPlaced(page, front)
    requires |front| == 0 ==> gap == []
    requires |front| > 0 ==> gap == if n - front[|front| - 1].number > 1 then [Ellipsis] else []
    ensures WellPlaced(page, front + gap + [PageButton(n, page == n)])
  {
    var r := front + gap + [PageButton(n, page == n)];
    var m := |front|;
    forall k | 0 <= k < |r| - 1 && r[k].PageButton? && r[k + 1].PageButton?
      ensures r[k + 1].number - r[k].number <= 1
    {
      if k < m - 1 {
        assert r[k] == front[k] && r[k + 1] == front[k + 1];
      }
    }
    forall k | 0 <= k < |r| && r[k].Ellipsis?
      ensures && 0 < k < |r| - 1
              && r[k - 1].PageButton? && r[k + 1].PageButton?
              && r[k + 1].number - r[k - 1].number > 1
    {
      if k < m {
        assert r[k] == front[k] && r[k - 1] == front[k - 1];
        if k + 1 < m {
          assert r[k + 1] == front[k + 1];
        }
      }
    }
    forall k | 0 <= k < |r| && r[k].PageButton?
      ensures r[k].current <==> r[k].number == page
    {
      if k < m {
        assert r[k] == front[k];
      }
    }
  }

  /** Appending a number appends its button, after an ellipsis when it is
      more than one above the previous number. */
  lemma ItemsSnoc(page: int, numbers: seq<int>, n: int)
    ensures PageItems(page, numbers + [n])
         == PageItems(page, numbers)
            + (if |numbers| > 0 && n - numbers[|numbers| - 1] > 1 then [Ellipsis] else [])
            + [PageButton(n, page == n)]
  {
    assert (numbers + [n])[..|numbers|] == numbers;
  }

  /** A pushed sequence that is already ascending is the window itself. */
  lemma WindowIs(page: int, totalPages: int, w: seq<int>)
    requires Pushed(page, totalPages) == w && Ascending(w)
    ensures PageNumbers(page, totalPages) == w
  {
    SortFixpoint(w);
  }

  /** The pager on page 1 of 10: `1 2 3 … 10`. */
  lemma PagerFirstPage()
    ensures PageItems(1, PageNumbers(1, 10))
         == [PageButton(1, true), PageButton(2, false), PageButton(3, false), Ellipsis, PageButton(10, false)]
  {
    WindowIs(1, 10, [1, 2, 3, 10]);
    PagerFirstPageItems();
  }

  lemma PagerFirstPageItems()
    ensures PageItems(1, [1, 2, 3, 10])
         == [PageButton(1, true), PageButton(2, false), PageButton(3, false), Ellipsis, PageButton(10, false)]
  {
    assert PageItems(1, [1]) == [PageButton(1, true)] by {
      ItemsSnoc(1, [], 1);
    }
    assert PageItems(1, [1, 2])
        == [PageButton(1, true), PageButton(2, false)] by {
      ItemsSnoc(1, [1], 2);
      assert [1] + [2] == [1, 2];
    }
    assert PageItems(1, [1, 2, 3])
        == [PageButton(1, true), PageButton(2, false), PageButton(3, false)] by {
      ItemsSnoc(1, [1, 2], 3);
      assert [1, 2] + [3] == [1, 2, 3];
    }
    ItemsSnoc(1, [1, 2, 3], 10);
    assert [1, 2, 3] + [10] == [1, 2, 3, 10];
  }

  /** The pager on page 5 of 10: `1 … 4 5 6 … 10`. */
  lemma PagerMiddlePage()
    ensures PageItems(5, PageNumbers(5, 10))
         == [PageButton(1, false), Ellipsis, PageButton(4, false), PageButton(5, true), PageButton(6, false), Ellipsis, PageButton(10, false)]
  {
    WindowIs(5, 10, [1, 4, 5, 6, 10]);
    PagerMiddlePageItems();
  }

  lemma PagerMiddlePageItems()
    ensures PageItems(5, [1, 4, 5, 6, 10])
         == [PageButton(1, false), Ellipsis, PageButton(4, false), PageButton(5, true), PageButton(6, false), Ellipsis, PageButton(10, false)]
  {
    assert PageItems(5, [1]) == [PageButton(1, false)] by {
      ItemsSnoc(5, [], 1);
    }
    assert PageItems(5, [1, 4])
        == [PageButton(1, false), Ellipsis, PageButton(4, false)] by {
      ItemsSnoc(5, [1], 4);
      assert [1] + [4] == [1, 4];
    }
    assert PageItems(5, [1, 4, 5])
        == [PageButton(1, false), Ellipsis, PageButton(4, false), PageButton(5, true)] by {
      ItemsSnoc(5, [1, 4], 5);
      assert [1, 4] + [5] == [1, 4, 5];
    }
    assert PageItems(5, [1, 4, 5, 6])
        == [PageButton(1, false), Ellipsis, PageButton(4, false), PageButton(5, true), PageButton(6, false)] by {
      ItemsSnoc(5, [1, 4, 5], 6);
      assert [1, 4, 5] + [6] == [1, 4, 5, 6];
    }
    ItemsSnoc(5, [1, 4, 5, 6], 10);
    assert [1, 4, 5, 6] + [10] == [1, 4, 5, 6, 10];
  }

  /** The pager on page 9 of 10: `1 … 8 9 10`. */
  lemma PagerNearLastPage()
    ensures PageItems(9, PageNumbers(9, 10))
         == [PageButton(1, false), Ellipsis, PageButton(8, false), PageButton(9, true), PageButton(10, false)]
  {
    WindowIs(9, 10, [1, 8, 9, 10]);
    PagerNearLastPageItems();
  }

  lemma PagerNearLastPageItems()
    ensures PageItems(9, [1, 8, 9, 10])
         == [PageButton(1, false), Ellipsis, PageButton(8, false), PageButton(9, true), PageButton(10, false)]
  {
    assert PageItems(9, [1]) == [PageButton(1, false)] by {
      ItemsSnoc(9, [], 1);
    }
    assert PageItems(9, [1, 8])
        == [PageButton(1, false), Ellipsis, PageButton(8, false)] by {
      ItemsSnoc(9, [1], 8);
      assert [1] + [8] == [1, 8];
    }
    assert PageItems(9, [1, 8, 9])
        == [PageButton(1, false), Ellipsis, PageButton(8, false), PageButton(9, true)] by {
      ItemsSnoc(9, [1, 8], 9);
      assert [1, 8] + [9] == [1, 8, 9];
    }
    ItemsSnoc(9, [1, 8, 9], 10);
    assert [1, 8, 9] + [10] == [1, 8, 9, 10];
  }

  /** The pager on page 2 of 2: `1 2`, no ellipsis. */
  lemma PagerTwoPages()
    ensures PageItems(2, PageNumbers(2, 2))
         == [PageButton(1, false), PageButton(2, true)]
  {
    assert PageNumbers(2, 2) == [1, 2] by {
      SmallWindow(2, 2);
      assert Range(1, 2) == [1, 2];
    }
    PagerTwoPagesItems();
  }

  lemma PagerTwoPagesItems()
    ensures PageItems(2, [1, 2])
         == [PageButton(1, false), PageButton(2, true)]
  {
    assert PageItems(2, [1]) == [PageButton(1, false)] by {
      ItemsSnoc(2, [], 1);
    }
    ItemsSnoc(2, [1], 2);
    assert [1] + [2] == [1, 2];
  }

  /** The Previous button is disabled exactly on page 1. */
  predicate PreviousDisabled(page: int) {
    page == 1
  }

  /** The Next button is disabled exactly on the last page. */
  predicate NextDisabled(page: int, totalPages: int) {
    page == totalPages
  }
}

=== FILE: sorting.dfy ===
/** JavaScript's `Array.prototype.sort((a, b) => a - b)` on integers: the
    ascending rearrangement of its input, written as an insertion sort. */
module Sorting {

  predicate Ascending(s: seq<int>) {
    forall i, j | 0 <= i < j < |s| :: s[i] <= s[j]
  }

  predicate StrictlyAscending(s: seq<int>) {
    forall i, j | 0 <= i < j < |s| :: s[i] < s[j]
  }

  /** Places `x` into the ascending sequence `s`. */
  function Insert(x: int, s: seq<int>): (r: seq<int>)
    requires Ascending(s)
    ensures Ascending(r)
    ensures |r| == |s| + 1
    ensures multiset(r) == multiset(s) + multiset{x}
  {
    if |s| == 0 || x <= s[0] then [x] + s
    else
      var tail := Insert(x, s[1..]);
      assert s == [s[0]] + s[1..];
      LowerBoundKept(s[0], x, s[1..], tail);
      [s[0]] + tail
  }

  /** A lower bound of `t` and of `x` bounds every permutation of `t`
      with `x` added. */
  lemma LowerBoundKept(b: int, x: int, t: seq<int>, r: seq<int>)
    requires multiset(r) == multiset(t) + multiset{x}
    requires b <= x && forall k | 0 <= k < |t| :: b <= t[k]
    ensures forall k | 0 <= k < |r| :: b <= r[k]
  {
    forall k | 0 <= k < |r| ensures b <= r[k] {
      assert r[k] in multiset(r);
      if r[k] != x {
        assert r[k] in multiset(t);
      }
    }
  }

  /** The ascending permutation of `s`. */
  function SortAscending(s: seq<int>): (r: seq<int>)
    ensures Ascending(r)
    ensures |r| == |s|
    ensures multiset(r) == multiset(s)
  {
    if |s| == 0 then []
    else
      assert s == [s[0]] + s[1..];
      Insert(s[0], SortAscending(s[1..]))
  }

  /** Sorting an already ascending sequence leaves it as it is. */
  lemma {:induction false} SortFixpoint(s: seq<int>)
    requires Ascending(s)
    ensures SortAscending(s) == s
  {
    if |s| > 0 {
      SortFixpoint(s[1..]);
      assert s == [s[0]] + s[1..];
    }
  }

  /** The first element of an ascending permutation is the least element. */
  lemma AscendingPermutationHead(s: seq<int>, r: seq<int>, lo: int)
    requires Ascending(r) && multiset(r) == multiset(s)
    requires lo in s
    requires forall i | 0 <= i < |s| :: lo <= s[i]
    ensures |r| > 0 && r[0] == lo
  {
    PermutationMember(lo, s, r);
    PermutationMember(r[0], r, s);
    var j :| 0 <= j < |r| && r[j] == lo;
    assert r[0] <= r[j];
    var k :| 0 <= k < |s| && s[k] == r[0];
  }

  /** The last element of an ascending permutation is the greatest element. */
  lemma AscendingPermutationLast(s: seq<int>, r: seq<int>, hi: int)
    requires Ascending(r) && multiset(r) == multiset(s)
    requires hi in s
    requires forall i | 0 <= i < |s| :: s[i] <= hi
    ensures |r| > 0 && r[|r| - 1] == hi
  {
    PermutationMember(hi, s, r);
    var last := r[|r| - 1];
    PermutationMember(last, r, s);
    var j :| 0 <= j < |r| && r[j] == hi;
    assert r[j] <= last;
    var k :| 0 <= k < |s| && s[k] == last;
  }

  /** A member of one sequence is a member of any permutation of it. */
  lemma PermutationMember(x: int, s: seq<int>, r: seq<int>)
    requires multiset(r) == multiset(s) && x in s
    ensures x in r
  {
    assert x in multiset(s);
  }

  /** Two ascending arrangements of the same numbers are equal. */
  lemma {:induction false} SortedPermutationUnique(a: seq<int>, b: seq<int>)
    requires Ascending(a) && Ascending(b)
    requires multiset(a) == multiset(b)
    ensures a == b
  {
    assert |a| == |multiset(a)| == |multiset(b)| == |b|;
    if |a| > 0 {
      HeadOfAscending(a, b);
      HeadOfAscending(b, a);
      var a', b' := a[1..], b[1..];
      assert a == [a[0]] + a' && b == [b[0]] + b';
      assert multiset(a') == multiset(b') by {
        assert multiset(a) == multiset{a[0]} + multiset(a');
        assert multiset(b) == multiset{b[0]} + multiset(b');
        assert multiset(a') == multiset(a) - multiset{a[0]};
        assert multiset(b') == multiset(b) - multiset{b[0]};
      }
      SortedPermutationUnique(a', b');
    }
  }

  /** The head of an ascending sequence is at most every element of any
      sequence with the same elements. */
  lemma HeadOfAscending(a: seq<int>, b: seq<int>)
    requires Ascending(a) && |a| > 0 && |b| > 0
    requires multiset(a) == multiset(b)
    ensures a[0] <= b[0]
  {
    assert b[0] in multiset(a);
    var k :| 0 <= k < |a| && a[k] == b[0];
  }

  /** The sort is the only ascending rearrangement of its input. */
  lemma SortUnique(s: seq<int>, r: seq<int>)
    requires Ascending(r) && multiset(r) == multiset(s)
    ensures r == SortAscending(s)
  {
    SortedPermutationUnique(r, SortAscending(s));
  }
}

=== FILE: store.dfy ===
/** The shared list of to-do records (the `todos` array of the to-do
    context) and the three ways the components change it: patch by id
    (`Array.prototype.map`), remove by id (`filter`) and look up by id
    (`find`). */
module Store {
  import opened Options

  /** A to-do record. A missing `_id` or `description` is the empty string;
      records that come from the server always have a non-empty id. */
  datatype Todo = Todo(id: string, title: string, description: string, createdAt: string)

  /** The two fields the editors write. */
  datatype Field = Title | Description

  function Get(t: Todo, f: Field): string {
    match f
    case Title => t.title
    case Description => t.description
  }

  /** `{ ...t, [f]: v }` */
  function WithField(t: Todo, f: Field, v: string): (r: Todo)
    ensures r.id == t.id && r.createdAt == t.createdAt
    ensures Get(r, f) == v
    ensures forall g: Field | g != f :: Get(r, g) == Get(t, g)
  {
    match f
    case Title => t.(title := v)
    case Description => t.(description := v)
  }

  /** Whether some record carries `id`. */
  predicate HasId(todos: seq<Todo>, id: string) {
    exists i | 0 <= i < |todos| :: todos[i].id == id
  }

  /** `todos.find(t => t._id === id)`: the first record with that id. */
  function Find(todos: seq<Todo>, id: string): (r: Option<Todo>)
    ensures r.None? <==> !HasId(todos, id)
    ensures r.Some? ==> exists i | 0 <= i < |todos| ::
              && todos[i] == r.value
              && r.value.id == id
              && forall j | 0 <= j < i :: todos[j].id != id
  {
    if |todos| == 0 then None
    else if todos[0].id == id then Some(todos[0])
    else
      var r := Find(todos[1..], id);
      assert HasId(todos, id) ==> HasId(todos[1..], id) by {
        if HasId(todos, id) {
          var i :| 0 <= i < |todos| && todos[i].id == id;
          assert todos[1..][i - 1].id == id;
        }
      }
      assert r.Some? ==> exists i | 0 <= i < |todos| ::
               && todos[i] == r.value
               && r.value.id == id
               && forall j | 0 <= j < i :: todos[j].id != id by {
        if r.Some? {
          var i :| 0 <= i < |todos[1..]| && todos[1..][i] == r.value && r.value.id == id
                   && forall j | 0 <= j < i :: todos[1..][j].id != id;
          assert todos[i + 1] == r.value;
          assert forall j | 0 <= j < i + 1 :: todos[j].id != id by {
            forall j | 0 <= j < i + 1 ensures todos[j].id != id {
              if j > 0 { assert todos[j] == todos[1..][j - 1]; }
            }
          }
        }
      }
      r
  }

  /** `todos.map(t => t._id === id ? { ...t, [f]: v } : t)`: every record
      with that id gets the new value in field `f`; nothing else changes,
      and length and order are kept. */
  function Patch(todos: seq<Todo>, id: string, f: Field, v: string): (r: seq<Todo>)
    ensures |r| == |todos|
    ensures forall i | 0 <= i < |r| :: r[i].id == todos[i].id && r[i].createdAt == todos[i].createdAt
    ensures forall i, g: Field | 0 <= i < |r| ::
              Get(r[i], g) == if todos[i].id == id && g == f then v else Get(todos[i], g)
  {
    if |todos| == 0 then []
    else
      var head := if todos[0].id == id then WithField(todos[0], f, v) else todos[0];
      [head] + Patch(todos[1..], id, f, v)
  }

  /** `todos.filter(t => t._id !== id)`: the records with any other id, in
      their order. What it keeps is stated by `RemoveMembers` and
      `RemoveLength`. */
  function RemoveById(todos: seq<Todo>, id: string): (r: seq<Todo>)
    ensures |r| <= |todos|
    ensures forall i | 0 <= i < |r| :: r[i].id != id && r[i] in todos
  {
    if |todos| == 0 then []
    else if todos[0].id == id then RemoveById(todos[1..], id)
    else [todos[0]] + RemoveById(todos[1..], id)
  }

  /** A non-empty list has an id exactly when its head or its tail has it. */
  lemma HasIdCons(todos: seq<Todo>, id: string)
    requires |todos| > 0
    ensures HasId(todos, id) <==> todos[0].id == id || HasId(todos[1..], id)
  {
    if HasId(todos, id) && todos[0].id != id {
      var i :| 0 <= i < |todos| && todos[i].id == id;
      assert todos[1..][i - 1].id == id;
    }
    if HasId(todos[1..], id) {
      var i :| 0 <= i < |todos[1..]| && todos[1..][i].id == id;
      assert todos[i + 1].id == id;
    }
  }

  /** The removal keeps exactly the records whose id differs. */
  lemma {:induction false} RemoveMembers(todos: seq<Todo>, id: string)
    ensures forall t :: t in RemoveById(todos, id) <==> t in todos && t.id != id
  {
    if |todos| > 0 {
      RemoveMembers(todos[1..], id);
      assert todos == [todos[0]] + todos[1..];
    }
  }

  /** The removal shortens the list exactly when some record has the id. */
  lemma {:induction false} RemoveLength(todos: seq<Todo>, id: string)
    ensures |RemoveById(todos, id)| == |todos| <==> !HasId(todos, id)
  {
    if |todos| > 0 {
      RemoveLength(todos[1..], id);
      HasIdCons(todos, id);
    }
  }

  // ---- Lemmas relating the store operations ----

  /** Patching an id that no record carries changes nothing. */
  lemma PatchAbsentId(todos: seq<Todo>, id: string, f: Field, v: string)
    requires !HasId(todos, id)
    ensures Patch(todos, id, f, v) == todos
  {
    var r := Patch(todos, id, f, v);
    forall i | 0 <= i < |r| ensures r[i] == todos[i] {
      assert todos[i].id != id;
      assert Get(r[i], Title) == Get(todos[i], Title);
      assert Get(r[i], Description) == Get(todos[i], Description);
    }
  }

  /** Two patches of the same field on the same id: the later one wins. */
  lemma {:induction false} PatchLastWriteWins(todos: seq<Todo>, id: string, f: Field, a: string, b: string)
    ensures Patch(Patch(todos, id, f, a), id, f, b) == Patch(todos, id, f, b)
  {
    if |todos| > 0 {
      PatchLastWriteWins(todos[1..], id, f, a, b);
      assert Patch(todos, id, f, a)[1..] == Patch(todos[1..], id, f, a);
    }
  }

  /** A title patch and a description patch commute, so the order in which
      a title save and an autosave complete does not matter. */
  lemma PatchFieldsCommute(todos: seq<Todo>, id1: string, v1: string, id2: string, v2: string)
    ensures Patch(Patch(todos, id1, Title, v1), id2, Description, v2)
         == Patch(Patch(todos, id2, Description, v2), id1, Title, v1)
  {
    var r1 := Patch(Patch(todos, id1, Title, v1), id2, Description, v2);
    var r2 := Patch(Patch(todos, id2, Description, v2), id1, Title, v1);
    forall i | 0 <= i < |r1| ensures r1[i] == r2[i] {
      assert Get(r1[i], Title) == Get(r2[i], Title);
      assert Get(r1[i], Description) == Get(r2[i], Description);
    }
  }

  /** After a patch, looking the id up finds the first such record with the
      new value. */
  lemma {:induction false} FindAfterPatch(todos: seq<Todo>, id: string, f: Field, v: string)
    ensures Find(Patch(todos, id, f, v), id)
         == match Find(todos, id)
            case None => None
            case Some(t) => Some(WithField(t, f, v))
  {
    if |todos| > 0 {
      FindAfterPatch(todos[1..], id, f, v);
      assert Patch(todos, id, f, v)[1..] == Patch(todos[1..], id, f, v);
    }
  }

  /** Removing by id discards any patch made to that id. */
  lemma {:induction false} RemoveAfterPatch(todos: seq<Todo>, id: string, f: Field, v: string)
    ensures RemoveById(Patch(todos, id, f, v), id) == RemoveById(todos, id)
  {
    if |todos| > 0 {
      RemoveAfterPatch(todos[1..], id, f, v);
      var p := Patch(todos, id, f, v);
      assert p[1..] == Patch(todos[1..], id, f, v);
      if todos[0].id != id {
        assert p[0] == todos[0] by {
          assert Get(p[0], Title) == Get(todos[0], Title);
          assert Get(p[0], Description) == Get(todos[0], Description);
        }
      }
    }
  }

  /** `filter` keeps order: removing from a concatenation removes from each
      part. Together with `RemoveSingle` this determines `RemoveById`. */
  lemma {:induction false} RemoveConcat(a: seq<Todo>, b: seq<Todo>, id: string)
    ensures RemoveById(a + b, id) == RemoveById(a, id) + RemoveById(b, id)
  {
    if |a| > 0 {
      RemoveConcat(a[1..], b, id);
      assert (a + b)[1..] == a[1..] + b;
    } else {
      assert a + b == b;
    }
  }

  /** A single record is kept exactly when its id differs. */
  lemma RemoveSingle(t: Todo, id: string)
    ensures RemoveById([t], id) == if t.id == id then [] else [t]
  {
  }

  /** Removing twice is removing once, and afterwards no record carries the id. */
  lemma RemoveIdempotent(todos: seq<Todo>, id: string)
    ensures !HasId(RemoveById(todos, id), id)
    ensures RemoveById(RemoveById(todos, id), id) == RemoveById(todos, id)
  {
    var r := RemoveById(todos, id);
    RemoveMembers(todos, id);
    RemoveAbsentId(r, id);
  }

  /** Removing an id that no record carries changes nothing. */
  lemma {:induction false} RemoveAbsentId(todos: seq<Todo>, id: string)
    requires !HasId(todos, id)
    ensures RemoveById(todos, id) == todos
  {
    if |todos| > 0 {
      HasIdCons(todos, id);
      RemoveAbsentId(todos[1..], id);
      assert todos == [todos[0]] + todos[1..];
    }
  }
}

=== FILE: text.dfy ===
/** Strings as the browser sees them: JavaScript's `String.prototype.trim`. */
module Text {

  /** The WhiteSpace and LineTerminator code points of ECMAScript (sections
      12.2 and 12.3 of ECMA-262), which `trim` strips from both ends. */
  const WhiteSpace: set<char> := {
    '\t', '\n', '\U{000B}', '\U{000C}', '\r', ' ', '\U{00A0}', '\U{1680}',
    '\U{2000}', '\U{2001}', '\U{2002}', '\U{2003}', '\U{2004}', '\U{2005}',
    '\U{2006}', '\U{2007}', '\U{2008}', '\U{2009}', '\U{200A}',
    '\U{2028}', '\U{2029}', '\U{202F}', '\U{205F}', '\U{3000}', '\U{FEFF}'
  }

  predicate IsSpace(c: char) {
    c in WhiteSpace
  }

  /** Every character is whitespace (so `s.trim() === ""`). */
  predicate Blank(s: string) {
    forall i | 0 <= i < |s| :: IsSpace(s[i])
  }

  /** Length of the whitespace prefix of `s`. */
  function LeadingSpaces(s: string): (n: nat)
    ensures n <= |s|
    ensures Blank(s[..n])
    ensures n < |s| ==> !IsSpace(s[n])
  {
    if |s| == 0 || !IsSpace(s[0]) then 0
    else
      var n := 1 + LeadingSpaces(s[1..]);
      assert s[..n] == [s[0]] + s[1..][..n - 1];
      n
  }

  /** Length of the whitespace suffix of `s`. */
  function TrailingSpaces(s: string): (n: nat)
    ensures n <= |s|
    ensures Blank(s[|s| - n..])
    ensures n < |s| ==> !IsSpace(s[|s| - n - 1])
  {
    if |s| == 0 || !IsSpace(s[|s| - 1]) then 0
    else
      var m := TrailingSpaces(s[..|s| - 1]);
      TrailingStep(s, m);
      m + 1
  }

  /** A whitespace character after a maximal whitespace suffix of length
      `m` extends it to a maximal suffix of length `m + 1`. */
  lemma TrailingStep(s: string, m: nat)
    requires |s| > 0 && IsSpace(s[|s| - 1]) && m < |s|
    requires Blank(s[..|s| - 1][|s| - 1 - m..])
    requires m < |s| - 1 ==> !IsSpace(s[..|s| - 1][|s| - 1 - m - 1])
    ensures Blank(s[|s| - (m + 1)..])
    ensures m + 1 < |s| ==> !IsSpace(s[|s| - (m + 1) - 1])
  {
    var init := s[..|s| - 1];
    assert s[|s| - (m + 1)..] == init[|init| - m..] + [s[|s| - 1]];
    BlankSnoc(init[|init| - m..], s[|s| - 1]);
    assert m + 1 < |s| ==> s[|s| - (m + 1) - 1] == init[|init| - m - 1];
  }

  /** `s.trim()`: the slice of `s` left after cutting whitespace from both
      ends. It is empty exactly when `s` is blank, and otherwise starts and
      ends with a non-whitespace character. */
  function Trim(s: string): (r: string)
    ensures |r| <= |s|
    ensures r == [] <==> Blank(s)
    ensures |r| > 0 ==> !IsSpace(r[0]) && !IsSpace(r[|r| - 1])
    ensures exists lo | 0 <= lo <= |s| - |r| ::
              && r == s[lo..lo + |r|]
              && Blank(s[..lo])
              && Blank(s[lo + |r|..])
  {
    var lo := LeadingSpaces(s);
    var t := TrailingSpaces(s[lo..]);
    TrimParts(s, lo, t);
    s[lo..|s| - t]
  }

  /** What the cut between a whitespace prefix of length `lo` and a
      whitespace suffix of length `t` leaves, when both are maximal. */
  lemma TrimParts(s: string, lo: nat, t: nat)
    requires lo <= |s| && Blank(s[..lo]) && (lo < |s| ==> !IsSpace(s[lo]))
    requires t <= |s| - lo
    requires Blank(s[lo..][|s| - lo - t..])
    requires t < |s| - lo ==> !IsSpace(s[lo..][|s| - lo - t - 1])
    ensures var r := s[lo..|s| - t];
            && (r == [] <==> Blank(s))
            && (|r| > 0 ==> !IsSpace(r[0]) && !IsSpace(r[|r| - 1]))
            && r == s[lo..lo + |r|] && Blank(s[lo + |r|..])
  {
    var r := s[lo..|s| - t];
    SuffixOfRest(s, lo, t);
    assert |r| == 0 ==> Blank(s) by {
      if |r| == 0 {
        assert s[lo..] == s[|s| - t..];
        BlankSplit(s, lo);
      }
    }
    assert Blank(s) ==> lo == |s| by {
      if lo < |s| {
        assert !IsSpace(s[lo]);
      }
    }
    assert |r| > 0 ==> !IsSpace(r[0]) && !IsSpace(r[|r| - 1]) by {
      if |r| > 0 {
        assert r[|r| - 1] == s[|s| - t - 1];
        assert r[0] == s[lo];
      }
    }
  }

  /** A maximal whitespace suffix of `s[lo..]` is one of `s`. */
  lemma SuffixOfRest(s: string, lo: nat, t: nat)
    requires lo <= |s| && t <= |s| - lo
    requires Blank(s[lo..][|s| - lo - t..])
    requires t < |s| - lo ==> !IsSpace(s[lo..][|s| - lo - t - 1])
    ensures Blank(s[|s| - t..])
    ensures t < |s| - lo ==> !IsSpace(s[|s| - t - 1])
  {
    assert s[|s| - t..] == s[lo..][|s| - lo - t..];
    assert t < |s| - lo ==> s[|s| - t - 1] == s[lo..][|s| - lo - t - 1];
  }


  /** A blank string followed by a whitespace character is blank. */
  lemma BlankSnoc(a: string, c: char)
    requires Blank(a) && IsSpace(c)
    ensures Blank(a + [c])
  {
  }

  /** A blank prefix followed by a blank suffix is blank. */
  lemma BlankSplit(s: string, k: nat)
    requires k <= |s| && Blank(s[..k]) && Blank(s[k..])
    ensures Blank(s)
  {
    forall i | 0 <= i < |s| ensures IsSpace(s[i]) {
      if i < k {
        assert s[..k][i] == s[i];
      } else {
        assert s[k..][i - k] == s[i];
      }
    }
  }

  /** Trimming twice is trimming once. */
  lemma TrimIdempotent(s: string)
    ensures Trim(Trim(s)) == Trim(s)
  {
    var r := Trim(s);
    if r != [] {
      assert r[0..][..|r|] == r;
    }
  }

  /** The UTF-16 code units JavaScript counts for one character: two for a
      character outside the Basic Multilingual Plane, one otherwise. */
  function CodeUnits(c: char): nat {
    if c as int <= 0xFFFF then 1 else 2
  }

  /** `s.length` in JavaScript: the number of UTF-16 code units of `s`,
      which is at least its number of characters and at most twice that. */
  function Utf16Length(s: string): (n: nat)
    ensures |s| <= n <= 2 * |s|
  {
    if |s| == 0 then 0 else CodeUnits(s[0]) + Utf16Length(s[1..])
  }

  /** The code units of a character followed by a string. */
  lemma Utf16Cons(c: char, s: string)
    ensures Utf16Length([c] + s) == CodeUnits(c) + Utf16Length(s)
  {
    assert ([c] + s)[1..] == s;
  }

  /** The code units of a concatenation are those of its parts. */
  lemma {:induction false} Utf16Concat(a: string, b: string)
    ensures Utf16Length(a + b) == Utf16Length(a) + Utf16Length(b)
  {
    if |a| == 0 {
      assert a + b == b;
    } else {
      assert (a + b)[1..] == a[1..] + b;
      Utf16Concat(a[1..], b);
    }
  }

  /** A slice is no longer, in code units, than the string it is cut from. */
  lemma Utf16Slice(s: string, lo: nat, hi: nat)
    requires lo <= hi <= |s|
    ensures Utf16Length(s[lo..hi]) <= Utf16Length(s)
  {
    var p := s[..hi];
    Utf16Split(s, hi);
    Utf16Split(p, lo);
    assert s[lo..hi] == p[lo..];
  }

  /** Cutting a string in two splits its code units between the parts. */
  lemma Utf16Split(s: string, k: nat)
    requires k <= |s|
    ensures Utf16Length(s) == Utf16Length(s[..k]) + Utf16Length(s[k..])
  {
    assert s == s[..k] + s[k..];
    Utf16Concat(s[..k], s[k..]);
  }


  /** Trimming never lengthens a string in UTF-16 code units. */
  lemma TrimUtf16(s: string)
    ensures Utf16Length(Trim(s)) <= Utf16Length(s)
  {
    var lo, hi := TrimBounds(s);
    InfixUtf16(s, Trim(s), lo, hi);
  }

  /** Where `Trim(s)` sits in `s`. */
  lemma TrimBounds(s: string) returns (lo: nat, hi: nat)
    ensures lo <= hi <= |s| && Trim(s) == s[lo..hi]
  {
    lo := LeadingSpaces(s);
    hi := |s| - TrailingSpaces(s[lo..]);
  }

  /** A string found in `s` between `lo` and `hi` is no longer than `s` in
      code units. */
  lemma InfixUtf16(s: string, r: string, lo: nat, hi: nat)
    requires lo <= hi <= |s| && r == s[lo..hi]
    ensures Utf16Length(r) <= Utf16Length(s)
  {
    Utf16Slice(s, lo, hi);
  }
}

=== FILE: todo_list.dfy ===
/** The to-do list column (app/_components/TodoList.jsx): the guarded page
    change, the search-by-name list replacement and the empty state. */
module TodoList {
  import opened Options
  import opened Store
  import opened Pagination

  /** The navigation `handlePageChange` performs: `router.push` to the
      current path with query parameters `page` and `limit`. */
  datatype Navigation = Navigation(page: int, limit: int)

  /** `handlePageChange(newPage)`: nothing outside `1..totalPages`,
      otherwise a navigation to `newPage` that keeps the current `limit`. */
  function PageChange(newPage: int, totalPages: int, limit: int): (r: Option<Navigation>)
    ensures r.None? <==> newPage < 1 || newPage > totalPages
    ensures r.Some? ==> r.value.page == newPage && r.value.limit == limit
  {
    if newPage < 1 || newPage > totalPages then None
    else Some(Navigation(newPage, limit))
  }

  /** Previous (`page - 1`): navigates one page back, keeping `limit`,
      unless that page is outside `1..totalPages`. */
  function Previous(page: int, totalPages: int, limit: int): (r: Option<Navigation>)
    ensures r.None? <==> page <= 1 || page > totalPages + 1
    ensures r.Some? ==> r.value == Navigation(page - 1, limit)
  {
    PageChange(page - 1, totalPages, limit)
  }

  /** Next (`page + 1`): navigates one page on, keeping `limit`, unless that
      page is outside `1..totalPages`. */
  function Next(page: int, totalPages: int, limit: int): (r: Option<Navigation>)
    ensures r.None? <==> page < 0 || page >= totalPages
    ensures r.Some? ==> r.value == Navigation(page + 1, limit)
  {
    PageChange(page + 1, totalPages, limit)
  }

  /** On a page inside `1..totalPages` the pager's disabled buttons are
      exactly the ones the guard rejects: Previous is disabled and a no-op on
      page 1, Next is disabled and a no-op on the last page, and both
      navigate one page otherwise. */
  lemma ButtonsAgreeWithGuard(page: int, totalPages: int, limit: int)
    requires 1 <= page <= totalPages
    ensures PreviousDisabled(page) <==> Previous(page, totalPages, limit).None?
    ensures NextDisabled(page, totalPages) <==> Next(page, totalPages, limit).None?
    ensures !PreviousDisabled(page) ==> Previous(page, totalPages, limit) == Some(Navigation(page - 1, limit))
    ensures !NextDisabled(page, totalPages) ==> Next(page, totalPages, limit) == Some(Navigation(page + 1, limit))
  {
  }

  /** With no pages every request is rejected, even Next, whose button stays
      enabled on page 1 because `1 !== 0`. */
  lemma NoPagesRejectsAll(newPage: int, page: int, limit: int)
    ensures PageChange(newPage, 0, limit).None?
    ensures page == 1 ==> !NextDisabled(page, 0) && Next(page, 0, limit).None?
  {
  }

  /** Every page button of the window navigates to its own page with the
      current limit, for a current page inside `1..totalPages`. */
  lemma WindowButtonsNavigate(page: int, totalPages: int, limit: int)
    requires 1 <= page <= totalPages
    ensures forall n | n in PageNumbers(page, totalPages) ::
              PageChange(n, totalPages, limit) == Some(Navigation(n, limit))
  {
    WindowShape(page, totalPages);
  }

  /** The outcome of `GET /api/v1/todos/search/name`: the `data` field of
      the response, or a failure (network error or error status). */
  datatype SearchResponse = Found(data: seq<Todo>) | SearchFailed

  /** `fetchTodosByName`: a successful search replaces the whole list with
      the response data; a failed one leaves the list as it was. */
  function SearchByName(todos: seq<Todo>, response: SearchResponse): (r: seq<Todo>)
    ensures response.Found? ==> r == response.data
    ensures response.SearchFailed? ==> r == todos
  {
    match response
    case Found(data) => data
    case SearchFailed => todos
  }

  /** A successful search forgets the previous list entirely: its result
      does not depend on what was there before. */
  lemma SearchReplacesWholeList(a: seq<Todo>, b: seq<Todo>, data: seq<Todo>)
    ensures SearchByName(a, Found(data)) == SearchByName(b, Found(data))
  {
  }

  /** What the column shows under the search bar. */
  datatype View = EmptyState | ListAndPager

  /** `total === 0` shows "No Todos Found"; anything else shows the list and
      the pager. */
  function ViewFor(total: int): (v: View)
    ensures v == EmptyState <==> total == 0
  {
    if total == 0 then EmptyState else ListAndPager
  }

  /** `Math.ceil(total / limit)` for a positive limit. */
  function CeilDiv(total: nat, limit: nat): nat
    requires limit > 0
  {
    (total + limit - 1) / limit
  }

  /** When the server's pagination is consistent (`totalPages` is
      `ceil(total / limit)`), the pager is shown exactly when there is at
      least one page, so the pager never renders an empty window. */
  lemma PagerShownIffPages(total: nat, limit: nat, totalPages: int)
    requires limit > 0 && totalPages == CeilDiv(total, limit)
    ensures ViewFor(total) == ListAndPager <==> totalPages >= 1
    ensures ViewFor(total) == ListAndPager ==> |PageNumbers(1, totalPages)| >= 1
  {
    if total > 0 {
      assert totalPages >= 1;
      if totalPages <= 3 {
        SmallWindow(1, totalPages);
      } else {
        WindowEnds(1, totalPages);
      }
    }
  }
}

=== FILE: todo_section.dfy ===
/** The page body (app/_components/TodoSection.jsx): which record is
    selected, whether the split-pane editor or the mobile modal is shown,
    and how title renames and deletes change the shared list. Requests are
    emitted as effects that carry the id captured when they were sent; their
    outcomes come back as separate events, in any order. */
module TodoSection {
  import opened Options
  import opened Store

  /** Viewports narrower than this many pixels are mobile. */
  const MobileBreakpoint: int := 1024

  /** The section's state: the shared list, the selected copy (`todo`),
      the three visibility flags, the delete-in-progress flag and whether
      background scrolling is locked (`overflow: hidden`). */
  datatype Section = Section(
    todos: seq<Todo>,
    todo: Option<Todo>,
    showEditor: bool,
    showModal: bool,
    isMobile: bool,
    deleting: bool,
    scrollLocked: bool)

  /** The requests the section sends. */
  datatype Request = PutTitle(id: string, title: string) | DeleteTodo(id: string)

  datatype Event =
    | Load(initialTodos: seq<Todo>)
    | Resized(width: int)
    | Clicked(id: string)
    | ModalClosed
    | RenameRequested(title: string)
    | RenameSucceeded(id: string, title: string)
    | RenameFailed
    | DeleteRequested
    | DeleteSucceeded(id: string)
    | DeleteFailed

  datatype Outcome = Outcome(section: Section, request: Option<Request>)

  /** The state on mount, with the list from the server already loaded. */
  function Init(todos: seq<Todo>): (s: Section)
    ensures s.todos == todos && s.todo.None? && !s.showEditor && !s.showModal
    ensures !s.isMobile && !s.deleting && !s.scrollLocked
  {
    Section(todos, None, false, false, false, false, false)
  }

  /** `checkIsMobile`: mobile exactly below the breakpoint. */
  function Resize(s: Section, width: int): (r: Section)
    ensures r.isMobile <==> width < MobileBreakpoint
    ensures r.(isMobile := s.isMobile) == s
  {
    s.(isMobile := width < MobileBreakpoint)
  }

  /** Whether `id` is the id of the selected copy. */
  predicate IsSelected(s: Section, id: string) {
    s.todo.Some? && s.todo.value.id == id
  }

  /** `handleClick(id)`. On mobile it opens the modal and locks scrolling
      but does not change the selection. On desktop a click on the selected
      record deselects it and hides the editor; a click on another record in
      the list selects its first copy and shows the editor; a click on an id
      not in the list changes nothing. */
  function Click(s: Section, id: string): (r: Section)
    ensures r.todos == s.todos && r.deleting == s.deleting && r.isMobile == s.isMobile
    ensures s.isMobile ==>
              && r.showModal && r.scrollLocked
              && r.todo == s.todo && r.showEditor == s.showEditor
    ensures !s.isMobile ==> r.showModal == s.showModal && r.scrollLocked == s.scrollLocked
    ensures !s.isMobile && IsSelected(s, id) ==> r.todo.None? && !r.showEditor
    ensures !s.isMobile && !IsSelected(s, id) && HasId(s.todos, id) ==>
              && r.todo.Some? && r.todo.value.id == id && r.showEditor
              && r.todo == Find(s.todos, id)
              && exists i | 0 <= i < |s.todos| ::
                   && s.todos[i] == r.todo.value
                   && forall j | 0 <= j < i :: s.todos[j].id != id
    ensures !s.isMobile && !IsSelected(s, id) && !HasId(s.todos, id) ==> r == s
  {
    if s.isMobile then s.(showModal := true, scrollLocked := true)
    else if IsSelected(s, id) then s.(todo := None, showEditor := false)
    else
      match Find(s.todos, id)
      case Some(t) => s.(todo := Some(t), showEditor := true)
      case None => s
  }

  /** `closeEditorModal`: hides the modal and restores scrolling; the
      selection is untouched. */
  function CloseModal(s: Section): (r: Section)
    ensures !r.showModal && !r.scrollLocked
    ensures r.(showModal := s.showModal, scrollLocked := s.scrollLocked) == s
  {
    s.(showModal := false, scrollLocked := false)
  }

  /** `handleTitleChange(newTitle)` up to its `await`: a PUT for the
      selected id, or, with nothing selected, the `todo._id` dereference
      throws and is caught, so nothing is sent. */
  function RenameRequest(s: Section, title: string): (r: Option<Request>)
    ensures r.Some? <==> s.todo.Some?
    ensures r.Some? ==> r.value == PutTitle(s.todo.value.id, title)
  {
    match s.todo
    case Some(t) => Some(PutTitle(t.id, title))
    case None => None
  }

  /** A rename of `id` succeeded: every record with that id gets the new
      title and the selected copy is retitled too. With nothing selected
      any more, the copy becomes a record that has only the title. */
  function Renamed(s: Section, id: string, title: string): (r: Section)
    ensures r.todos == Patch(s.todos, id, Title, title)
    ensures r.todo.Some? && r.todo.value.title == title
    ensures s.todo.Some? ==> r.todo.value == s.todo.value.(title := title)
    ensures r.(todos := s.todos, todo := s.todo) == s
  {
    var copy := match s.todo
      case Some(t) => t.(title := title)
      case None => Todo("", title, "", "");
    s.(todos := Patch(s.todos, id, Title, title), todo := Some(copy))
  }

  /** `handleDelete` up to its `await`. While a delete is running the button
      is disabled and the click does nothing. Otherwise `deleting` is set
      and a DELETE is sent for the selected id; with nothing selected the
      dereference throws, so `deleting` is set and cleared at once and
      nothing is sent. */
  function BeginDelete(s: Section): (r: Outcome)
    ensures r.request.Some? <==> !s.deleting && s.todo.Some?
    ensures r.request.Some? ==>
              && r.request.value == DeleteTodo(s.todo.value.id)
              && r.section.deleting && r.section.(deleting := s.deleting) == s
    ensures r.request.None? ==> r.section == s
  {
    if s.deleting then Outcome(s, None)
    else match s.todo
      case Some(t) => Outcome(s.(deleting := true), Some(DeleteTodo(t.id)))
      case None => Outcome(s, None)
  }

  /** A delete of `id` succeeded: the selection is cleared, the editor
      hidden and every record with that id removed, the rest kept in order;
      the modal and the scroll lock are left as they were; `deleting` is
      cleared by the `finally`. */
  function Deleted(s: Section, id: string): (r: Section)
    ensures r.todos == RemoveById(s.todos, id) && !HasId(r.todos, id)
    ensures r.todo.None? && !r.showEditor && !r.deleting
    ensures r.showModal == s.showModal && r.scrollLocked == s.scrollLocked && r.isMobile == s.isMobile
  {
    RemoveIdempotent(s.todos, id);
    s.(todo := None, showEditor := false, todos := RemoveById(s.todos, id), deleting := false)
  }

  /** One event. Failed renames change nothing; failed deletes only clear
      `deleting`; `Load` is the effect that copies `initialTodos` into the
      shared list. */
  function Step(s: Section, e: Event): (r: Outcome)
    ensures e.RenameFailed? ==> r == Outcome(s, None)
    ensures e.DeleteFailed? ==> r == Outcome(s.(deleting := false), None)
    ensures r.request.Some? ==> e.RenameRequested? || e.DeleteRequested?
  {
    match e
    case Load(initialTodos) => Outcome(s.(todos := initialTodos), None)
    case Resized(width) => Outcome(Resize(s, width), None)
    case Clicked(id) => Outcome(Click(s, id), None)
    case ModalClosed => Outcome(CloseModal(s), None)
    case RenameRequested(title) => Outcome(s, RenameRequest(s, title))
    case RenameSucceeded(id, title) => Outcome(Renamed(s, id, title), None)
    case RenameFailed => Outcome(s, None)
    case DeleteRequested => BeginDelete(s)
    case DeleteSucceeded(id) => Outcome(Deleted(s, id), None)
    case DeleteFailed => Outcome(s.(deleting := false), None)
  }

  /** The section's invariant: the editor pane is only shown with a
      selection, and scrolling is locked exactly while the modal is open. */
  predicate Valid(s: Section) {
    && (s.showEditor ==> s.todo.Some?)
    && (s.showModal <==> s.scrollLocked)
  }

  lemma InitValid(todos: seq<Todo>)
    ensures Valid(Init(todos))
  {
  }

  /** Every event keeps the invariant. */
  lemma StepKeepsValid(s: Section, e: Event)
    requires Valid(s)
    ensures Valid(Step(s, e).section)
  {
  }

  /** On desktop, clicking an unselected record twice selects it and then
      returns to no selection with the editor hidden. */
  lemma DesktopClickToggles(s: Section, id: string)
    requires !s.isMobile && s.todo.None? && HasId(s.todos, id)
    ensures Click(s, id).showEditor
    ensures Click(Click(s, id), id) == s.(showEditor := false)
  {
  }

  /** On desktop, clicking another listed record while one is selected
      switches the selection directly, without passing through "none". */
  lemma DesktopClickSwitches(s: Section, id: string)
    requires !s.isMobile && s.todo.Some? && s.todo.value.id != id && HasId(s.todos, id)
    ensures Click(s, id).todo.Some? && Click(s, id).todo.value.id == id
    ensures Click(s, id).showEditor
  {
  }

  /** On mobile a click opens the modal over whatever was selected before;
      with nothing selected the modal's editor is bound to no record, so a
      rename or delete from it sends nothing. */
  lemma MobileClickKeepsSelection(s: Section, id: string, title: string)
    requires s.isMobile && s.todo.None? && !s.deleting
    ensures Click(s, id).showModal && Click(s, id).todo.None?
    ensures RenameRequest(Click(s, id), title).None?
    ensures BeginDelete(Click(s, id)).request.None?
  {
  }

  /** Widening the window past the breakpoint does not close an open modal,
      so the modal can be visible in desktop mode. */
  lemma ResizeKeepsModal(s: Section, width: int)
    requires s.showModal && width >= MobileBreakpoint
    ensures !Resize(s, width).isMobile && Resize(s, width).showModal
  {
  }

  /** A successful delete leaves the modal, and with it the scroll lock, as
      it was: after a delete from the modal the modal stays open, bound to
      no record. */
  lemma DeleteFromModalKeepsModal(s: Section, id: string)
    requires s.showModal && s.scrollLocked
    ensures Deleted(s, id).showModal && Deleted(s, id).scrollLocked
    ensures Deleted(s, id).todo.None?
  {
  }

  /** A rename that completes after the user selected another record
      patches the list under the old id but retitles the copy now selected,
      so the selected copy and its record in the list disagree. */
  lemma LateRenameRetitlesOtherSelection(s: Section, id: string, title: string)
    requires s.todo.Some? && s.todo.value.id != id && s.todo.value in s.todos
    requires s.todo.value.title != title
    ensures Renamed(s, id, title).todo.value.title == title
    ensures s.todo.value in Renamed(s, id, title).todos
  {
    var t := s.todo.value;
    var i :| 0 <= i < |s.todos| && s.todos[i] == t;
    var r := Renamed(s, id, title).todos;
    assert r[i] == t by {
      assert Get(r[i], Title) == Get(t, Title);
      assert Get(r[i], Description) == Get(t, Description);
    }
  }

  /** Deleting a record discards any rename of it, whichever order the two
      responses arrive in. */
  lemma RenameThenDelete(s: Section, id: string, title: string)
    ensures Deleted(Renamed(s, id, title), id).todos == Deleted(s, id).todos
    ensures Renamed(Deleted(s, id), id, title).todos == Deleted(s, id).todos
  {
    RemoveAfterPatch(s.todos, id, Title, title);
    RemoveIdempotent(s.todos, id);
    PatchAbsentId(RemoveById(s.todos, id), id, Title, title);
  }
}

=== FILE: todos_head.dfy ===
/** The header bar's search (app/_components/TodosHead.jsx): the toggle
    button, the input with its 500 ms debounce, the suggestion dropdown and
    the "No results" box. Timers and requests are events: `DebounceElapsed` is
    the pending timeout going off, and a suggestion response arrives as its
    own event, in any order relative to other events. */
module TodosHead {
  import opened Options
  import opened Text

  /** One suggestion: the `_id` and `title` of a matching record. */
  datatype Suggestion = Suggestion(id: string, title: string)

  /** `pending` is the value captured by the one outstanding debounce timer,
      if any (`debounceRef`). */
  datatype Search = Search(
    isOpen: bool,
    query: string,
    showDropdown: bool,
    results: seq<Suggestion>,
    isLoading: bool,
    pending: Option<string>)

  datatype Effect =
    | NoEffect
    | FocusInput
    | SearchByName(query: string)
    | FetchSuggestions(query: string)
    | Refresh

  datatype Event =
    | SearchButton
    | Typed(value: string)
    | DebounceElapsed
    | SuggestionsArrived(data: Option<seq<Suggestion>>)
    | SuggestionsFailed
    | ResultClicked(index: int)
    | ClearClicked
    | MouseDownOutside

  datatype Outcome = Outcome(search: Search, effect: Effect)

  function Init(): (s: Search)
    ensures !s.isOpen && s.query == [] && !s.showDropdown && s.results == []
    ensures !s.isLoading && s.pending.None?
  {
    Search(false, [], false, [], false, None)
  }

  /** Whether the suggestion list is rendered (and `dropdownRef` is set). */
  predicate SuggestionListVisible(s: Search) {
    s.isOpen && s.showDropdown && |s.results| > 0
  }

  /** Whether the "No results found" box is rendered. */
  predicate NoResultsVisible(s: Search) {
    s.isOpen && s.showDropdown && s.query != [] && |s.results| == 0 && !s.isLoading
  }

  /** `handleSearchClick`. A closed bar opens and focuses the input. An open
      bar with a query that is not blank after trimming runs the page
      search with the query as typed, untrimmed, and stays open; with a
      blank query it empties the query, hides the dropdown and closes. */
  function SearchClick(s: Search): (r: Outcome)
    ensures !s.isOpen ==> r == Outcome(s.(isOpen := true), FocusInput)
    ensures s.isOpen && !Blank(s.query) ==> r == Outcome(s, SearchByName(s.query))
    ensures s.isOpen && Blank(s.query) ==>
              && !r.search.isOpen && r.search.query == [] && !r.search.showDropdown
              && r.effect.NoEffect?
              && r.search.(isOpen := true, query := s.query, showDropdown := s.showDropdown) == s
  {
    if !s.isOpen then Outcome(s.(isOpen := true), FocusInput)
    else if Trim(s.query) != [] then Outcome(s, SearchByName(s.query))
    else Outcome(s.(query := [], showDropdown := false, isOpen := false), NoEffect)
  }

  /** `handleSearch`: the input (rendered only while open) takes the value
      and restarts the debounce with it, replacing any pending one. */
  function Type(s: Search, value: string): (r: Search)
    ensures s.isOpen ==> r.query == value && r.pending == Some(value)
    ensures s.isOpen ==> r.(query := s.query, pending := s.pending) == s
    ensures !s.isOpen ==> r == s
  {
    if s.isOpen then s.(query := value, pending := Some(value)) else s
  }

  /** The debounce timer goes off with the value it captured: a non-empty
      value starts a suggestion fetch and sets the spinner; an empty one
      clears the spinner and hides the dropdown. It fires even after the bar
      was closed. With no timer pending nothing happens. */
  function DebounceFire(s: Search): (r: Outcome)
    ensures r.search.pending.None?
    ensures r.effect.FetchSuggestions? <==> s.pending.Some? && s.pending.value != []
    ensures r.effect.FetchSuggestions? ==>
              && r.effect.query == s.pending.value && r.search.isLoading
              && r.search.(isLoading := s.isLoading, pending := s.pending) == s
    ensures s.pending == Some([]) ==>
              && r.effect.NoEffect? && !r.search.isLoading && !r.search.showDropdown
              && r.search.(isLoading := s.isLoading, showDropdown := s.showDropdown, pending := s.pending) == s
    ensures s.pending.None? ==> r == Outcome(s, NoEffect)
  {
    match s.pending
    case None => Outcome(s, NoEffect)
    case Some(v) =>
      if v != [] then Outcome(s.(isLoading := true, pending := None), FetchSuggestions(v))
      else Outcome(s.(isLoading := false, showDropdown := false, pending := None), NoEffect)
  }

  /** A suggestion response: its list (or the empty list when the payload
      has none) replaces the results, the dropdown is shown and the spinner
      cleared — whatever the query is now. */
  function Arrived(s: Search, data: Option<seq<Suggestion>>): (r: Search)
    ensures r.results == data.GetOr([]) && r.showDropdown && !r.isLoading
    ensures r.(results := s.results, showDropdown := s.showDropdown, isLoading := s.isLoading) == s
  {
    s.(results := data.GetOr([]), showDropdown := true, isLoading := false)
  }

  /** A failed suggestion request empties the results and hides the
      dropdown. */
  function Failed(s: Search): (r: Search)
    ensures r.results == [] && !r.showDropdown && !r.isLoading
    ensures r.(results := s.results, showDropdown := s.showDropdown, isLoading := s.isLoading) == s
  {
    s.(results := [], showDropdown := false, isLoading := false)
  }

  /** `handleSelectResult`: clicking a visible suggestion copies its title
      into the query and hides the dropdown; the results and any pending
      debounce stay. Out-of-range indices and hidden lists do nothing. */
  function SelectResult(s: Search, index: int): (r: Search)
    ensures SuggestionListVisible(s) && 0 <= index < |s.results| ==>
              && r.query == s.results[index].title && !r.showDropdown
              && r.(query := s.query, showDropdown := s.showDropdown) == s
    ensures !(SuggestionListVisible(s) && 0 <= index < |s.results|) ==> r == s
  {
    if SuggestionListVisible(s) && 0 <= index < |s.results|
    then s.(query := s.results[index].title, showDropdown := false)
    else s
  }

  /** `clearSearch` (its button exists only while open): empties query and
      results, hides the dropdown and spinner, closes the bar and refreshes
      the page. The bar is back in its initial state except for a pending
      debounce, which is not cancelled and still fires afterwards. */
  function ClearSearch(s: Search): (r: Outcome)
    ensures s.isOpen ==> r.search == Init().(pending := s.pending) && r.effect == Refresh
    ensures !s.isOpen ==> r == Outcome(s, NoEffect)
  {
    if s.isOpen then Outcome(Search(false, [], false, [], false, s.pending), Refresh)
    else Outcome(s, NoEffect)
  }

  /** A mousedown outside the input and the suggestion list hides the
      dropdown, but only while the suggestion list is mounted. */
  function OutsideClick(s: Search): (r: Search)
    ensures SuggestionListVisible(s) ==> !r.showDropdown
    ensures r.(showDropdown := s.showDropdown) == s
    ensures !SuggestionListVisible(s) ==> r == s
  {
    if SuggestionListVisible(s) then s.(showDropdown := false) else s
  }

  function Step(s: Search, e: Event): (r: Outcome)
    ensures r.effect.FetchSuggestions? ==> e.DebounceElapsed? && s.pending == Some(r.effect.query)
    ensures r.effect.SearchByName? ==> e.SearchButton? && s.isOpen && r.effect.query == s.query
    ensures r.effect.Refresh? ==> e.ClearClicked?
  {
    match e
    case SearchButton => SearchClick(s)
    case Typed(value) => Outcome(Type(s, value), NoEffect)
    case DebounceElapsed => DebounceFire(s)
    case SuggestionsArrived(data) => Outcome(Arrived(s, data), NoEffect)
    case SuggestionsFailed => Outcome(Failed(s), NoEffect)
    case ResultClicked(index) => Outcome(SelectResult(s, index), NoEffect)
    case ClearClicked => ClearSearch(s)
    case MouseDownOutside => Outcome(OutsideClick(s), NoEffect)
  }

  /** Runs the events in order, collecting the effects that are not
      `NoEffect`. */
  function Run(s: Search, events: seq<Event>): (r: (Search, seq<Effect>))
    ensures forall i :: 0 <= i < |r.1| ==> !r.1[i].NoEffect?
    ensures |r.1| <= |events|
    decreases |events|
  {
    if events == [] then (s, [])
    else
      var o := Step(s, events[0]);
      var rest := Run(o.search, events[1..]);
      (rest.0, if o.effect.NoEffect? then rest.1 else [o.effect] + rest.1)
  }

  /** The keystrokes of `values`, in order. */
  function Keystrokes(values: seq<string>): (r: seq<Event>)
    ensures |r| == |values|
    ensures forall i :: 0 <= i < |values| ==> r[i] == Typed(values[i])
  {
    if values == [] then [] else [Typed(values[0])] + Keystrokes(values[1..])
  }

  /** The two boxes under the input are never shown together. */
  lemma DropdownsExclusive(s: Search)
    ensures !(SuggestionListVisible(s) && NoResultsVisible(s))
  {
  }

  /** Typing any non-empty run of values into the open bar leaves the last
      value as the query and as the only pending debounce, sends nothing
      and changes nothing else. */
  lemma {:induction false} TypingLeavesOneDebounce(s: Search, values: seq<string>)
    requires s.isOpen && values != []
    ensures Run(s, Keystrokes(values)).1 == []
    ensures Run(s, Keystrokes(values)).0 == s.(query := values[|values|-1], pending := Some(values[|values|-1]))
    decreases |values|
  {
    var events := Keystrokes(values);
    assert events[1..] == Keystrokes(values[1..]);
    var s1 := Type(s, values[0]);
    if |values| > 1 {
      TypingLeavesOneDebounce(s1, values[1..]);
    }
  }

  /** After a burst of typing, the debounce fetches once, for the last value
      only (when it is non-empty); a second firing does nothing. */
  lemma FireTwiceFetchesOnce(s: Search, values: seq<string>)
    requires s.isOpen && values != [] && values[|values|-1] != []
    ensures var typed := Run(s, Keystrokes(values)).0;
            var once := DebounceFire(typed);
            && once.effect == FetchSuggestions(values[|values|-1])
            && DebounceFire(once.search) == Outcome(once.search, NoEffect)
  {
    TypingLeavesOneDebounce(s, values);
  }

  /** Only the last suggestion response to arrive matters: it overwrites
      whatever an earlier one set. */
  lemma LastResponseWins(s: Search, first: Option<seq<Suggestion>>, second: Option<seq<Suggestion>>)
    ensures Arrived(Arrived(s, first), second) == Arrived(s, second)
    ensures Arrived(Failed(s), second) == Arrived(s, second)
  {
  }

  /** Responses are not matched to the query that asked for them: when the
      fetch for "ab" answers after the fetch for "abc", the bar shows "abc"
      with the suggestions for "ab". */
  lemma StaleResponseClobbers(s: Search, forAb: seq<Suggestion>, forAbc: seq<Suggestion>)
    requires s.isOpen && s.pending.None?
    ensures var f1 := DebounceFire(Type(s, "ab"));
            var f2 := DebounceFire(Type(f1.search, "abc"));
            var shown := Arrived(Arrived(f2.search, Some(forAbc)), Some(forAb));
            && f1.effect == FetchSuggestions("ab")
            && f2.effect == FetchSuggestions("abc")
            && shown.query == "abc"
            && shown.results == forAb
  {
  }

  /** The first response to arrive clears the spinner even while another
      fetch is still outstanding. */
  lemma SpinnerClearsEarly(s: Search, data: Option<seq<Suggestion>>)
    requires s.isOpen && s.pending.None?
    ensures var f1 := DebounceFire(Type(s, "a"));
            var f2 := DebounceFire(Type(f1.search, "ab"));
            f2.search.isLoading && !Arrived(f2.search, data).isLoading
  {
  }

  /** A debounce still pending when the bar is closed fires anyway: a query
      of spaces closes the bar as blank, yet its fetch is sent, and its
      response turns the dropdown on while the bar is closed. */
  lemma ClosedBarStillFetches(s: Search, data: Option<seq<Suggestion>>)
    requires s.isOpen
    ensures var closed := SearchClick(Type(s, " ")).search;
            var fired := DebounceFire(closed);
            && !closed.isOpen
            && fired.effect == FetchSuggestions(" ")
            && !Arrived(fired.search, data).isOpen
            && Arrived(fired.search, data).showDropdown
  {
    assert Blank(" ") by { assert IsSpace(" "[0]); }
  }

  /** An outside click changes nothing but the dropdown flag. When the
      suggestion list was shown, neither box is shown afterwards; a shown
      "No results" box stays, because the handler only looks at the list. */
  lemma OutsideClickOnlyHidesDropdown(s: Search)
    ensures OutsideClick(s).(showDropdown := s.showDropdown) == s
    ensures !SuggestionListVisible(OutsideClick(s))
    ensures SuggestionListVisible(s) ==> !NoResultsVisible(OutsideClick(s))
    ensures NoResultsVisible(s) ==> NoResultsVisible(OutsideClick(s))
  {
  }

  /** Typing "ab" on the open bar, letting the debounce fire and receiving
      no suggestions shows the "No results" box, and an outside click then
      leaves it open. */
  lemma NoResultsOutlivesOutsideClick(s: Search)
    requires s.isOpen
    ensures var shown := Arrived(DebounceFire(Type(s, "ab")).search, Some([]));
            && NoResultsVisible(shown)
            && OutsideClick(shown) == shown
  {
  }

  /** The search button runs the page search with the query exactly as
      typed, surrounding spaces included, and only when it is not blank. */
  lemma SearchSendsUntrimmed(s: Search)
    requires s.isOpen
    ensures SearchClick(s).effect.SearchByName? <==> !Blank(s.query)
    ensures SearchClick(s).effect.SearchByName? ==> SearchClick(s).effect.query == s.query
  {
  }
}
